=== FILE: README.md ===
# alpine-archive-proxy, modelled in Dafny

alpine-archive-proxy is a fetch-through cache and mirror for the Alpine Linux package
archive. It serves `.apk` packages and `APKINDEX.tar.gz` index files under `/proxied`
(fetched from upstream and cached on first use) and under `/local`. It optionally
guards every request with HTTP Basic credentials (section 2 of RFC 7617). A rebuild of
a directory's index is scheduled once per directory, in the cluster primary.

This project models the sequential decisions inside that HTTP and filesystem plumbing
as pure functions and small state machines. Everything I/O decides (a `stat`, a
directory listing, an upstream answer, whether a stream failed, an exit code) is an
input:

- `files.dfy` (`Files`): `getDirectoryAndFilename`, with JavaScript's `split` and
  `join` and their round trips.
- `http.dfy` (`Http`): the status-acceptance rule of `request`.
- `response.dfy` (`Response`): the rules of Node's `ServerResponse` the handlers rely
  on. A head can be written once; `writeHead` throws on a second head, on a status
  outside 100..999, or on an undefined header value, and it sends nothing when it
  throws. `end()` without a head sends an implicit 200.
- `apk.dfy` (`Apk`): the `newPackageAdded` debounce state machine, the `findApkDirs`
  tree walk, and the `apk index` argument list and exit-code handling of
  `buildApkIndex`.
- `proxy_repo.dfy` (`ProxyRepo`): `getProxiedPackage` (cache hit or miss, upstream
  outcome, notification) and `proxyUrl`.
- `server.dfy` (`Server`): `isValidLogin` and the routing of `handle`, including its
  `catch`/`finally`.
- `cluster.dfy` (`Cluster`): the primary's worker-exit supervisor and its relay of
  `NEW_PACKAGE_ADDED` messages.
- `strings.dfy`, `wrappers.dfy`: string helpers (`startsWith`, `endsWith`, `slice`,
  ASCII case mapping, the `\s` class) and `Option`/`Result`.

Behaviour of the code that is easy to miss, and that the model keeps:

- `scheduledPathsToRebuild` only grows: the timer callback at src/apk.ts:25 only
  calls `buildApkIndex`. So after the first rebuild, a directory is never
  proactively rebuilt again in that primary's lifetime.
- A package request calls `request` without `ignoreError`, so any upstream status
  of 300 or more rejects and the client gets 500. Only `proxyUrl` passes statuses
  through.
- For a package, an upstream 200 without `content-length` puts an undefined header
  value into `writeHead`, which Node refuses; the outer `catch` answers 500, so
  such a reply is neither served nor cached.
- `buildApkIndex` passes 10 fixed arguments (`index` … `--rewrite-arch` and the
  architecture) before the package files.
- A `readdir` that throws anywhere in the walk of `findApkDirs` rejects the whole
  walk.
- Only the workers forked at start-up get a `message` listener (see Findings).
- With a single core (`parallelism === 1`) the one process is still the cluster
  primary and serves requests itself. Only the fork loop, the `message` relay and
  the `exit` handler are absent. Its `newPackageAdded` takes the primary branch, so
  the debouncer runs locally as `Apk.Primary`, and `Apk.NewPackageAdded` and
  `Apk.RunArmsOncePerPath` apply to it as they stand. The supervisor model starts
  from `Cluster.Boot`, which needs two or more cores.
- `/proxied` need not be followed by `/`: `/proxiedfoo.apk` is fetched as
  `/proxied/foo.apk` would be.

Time is an integer number of milliseconds. `setTimeout`, `fork`, `process.send` and
`stop` are recorded as logged effects. Base64 decoding (`Buffer.from(t, 'base64')`)
is a function parameter `decode`. The configuration (`logins`, `PUB_KEY_PATH`,
`EXTERNAL_BASE_URL`) is a parameter too.

## Model

| member | source | states |
|---|---|---|
| Files.Split | src/files.ts:18 | `split('/')` always yields at least one part, and no part contains the separator |
| Files.JoinSplit | src/files.ts:18-19 | joining the parts of a split with the separator gives back the original string |
| Files.SplitJoin | src/files.ts:18-19 | splitting a join of separator-free parts gives back the parts |
| Files.GetDirectoryAndFilename | src/files.ts:17-24 | never fails, so "No filename" is unreachable; the file name has no `/`; with no `/` the directory is empty and the file name is the path; otherwise directory + `/` + file name is the path |
| Files.DirectoryIsBeforeLastSlash | src/files.ts:18-20 | the directory is exactly the text before the last `/` and the file name the text after it, checked against an independent last-index search |
| Files.LocationUnique | src/files.ts:18-20 | a path has only one way to be written as directory + `/` + a file name without `/` |
| Http.Request | src/http.ts:9-20 | a transport error always rejects; with `ignoreError` any answer resolves; without it the request resolves exactly for a defined status in [100, 300); a resolution carries the upstream reply unchanged |
| Http.IgnoreErrorOnlyWidens | src/http.ts:11-15 | whatever resolves without `ignoreError` resolves identically with it; with it only a transport error rejects |
| Apk.NewPackageAdded | src/apk.ts:21-31 | primary, new path: the path is added and exactly one 60000 ms timer is armed; primary, known path: nothing changes; worker: exactly one `NEW_PACKAGE_ADDED` message is sent and the local state is untouched |
| Apk.TimerFires | src/apk.ts:25 | the timer callback only starts a rebuild; the path stays scheduled |
| Apk.RunOnlyGrows | src/apk.ts:18-26 | over any sequence of notifications and timer firings, the scheduled set never loses a path |
| Apk.RunArmsOncePerPath | src/apk.ts:22-26 | over the whole life of the process, each path has had exactly one timer armed if it is scheduled and none otherwise, so never more than one |
| Apk.BurstCollapses | src/apk.ts:21-26 | any burst of notifications to a fresh primary schedules exactly the distinct paths, with one timer per distinct path however often it repeats |
| Apk.WorkerOnlyForwards | src/apk.ts:27-30 | a worker turns every notification into one message to the primary, in order, and keeps no schedule |
| Apk.FindApkDirsSound | src/apk.ts:34-50 | every directory reported is the start directory or a descendant of it and directly holds a regular file ending in `.apk` |
| Apk.FindApkDirsComplete | src/apk.ts:34-50 | every descendant directory that directly holds a regular `.apk` file is reported |
| Apk.FindApkDirsExact | src/apk.ts:34-50 | a directory is reported if and only if it is at or below the start directory and directly holds a regular `.apk` file |
| Apk.AllReadableExact | src/apk.ts:35-42 | the tree is readable exactly when no route of directory entries reaches a directory whose `readdir` throws |
| Apk.FindApkDirsOutcome | src/apk.ts:34-50 | the walk rejects exactly when reading the start directory, or any directory a route reaches, throws; otherwise it yields exactly the package directories |
| Apk.IndexFiles | src/apk.ts:62 | every listed file is `./` followed by a listed name ending in `.apk`, and every listed `.apk` name appears so prefixed |
| Apk.IndexFilesAppend | src/apk.ts:62 | the filter distributes over concatenation, so the listing order is kept |
| Apk.Basename | src/apk.ts:55 | for every directory, the architecture is the text after the last `/` once only the trailing `/` characters are dropped; the whole trimmed path when it has no `/`; no `/` in any case |
| Apk.TrimTrailingSlashes | src/apk.ts:55 | drops a suffix made only of `/` characters, and leaves a path that does not end in `/` |
| Apk.BasenameOfDirectoryWithSlash | src/apk.ts:55 | the directory `/v3.18/main/`, which a package path with a doubled `/` yields, has architecture `main` |
| Apk.IndexArgs | src/apk.ts:71 | the arguments are the nine fixed flags, then the architecture right after `--rewrite-arch`, then exactly the index file list; the length is 10 plus the number of files |
| Apk.IndexExit | src/apk.ts:84-91 | exit code 0 resolves true; any other code, or none, rejects with that code |
| Apk.BuildApkIndex | src/apk.ts:54-95 | `apk` is run, with the argument list above, exactly when the listing, the upstream index request and its copy succeed; the build succeeds exactly when it is run and exits with 0; the upstream index URL is base + directory + `/APKINDEX.tar.gz` |
| ProxyRepo.GetProxiedPackage | src/proxy_repo.ts:12-67 | hit: the file is streamed with `x-fetched-from: local` and its size, and nothing is asked upstream; miss: the upstream URL is base + directory + `/` + file name; upstream 200 with a length: 200 with the base URL as origin and the upstream length, then `newPackageAdded(directory)` whether or not the tee failed; upstream 200 without a length: 500, no notification; another accepted status is echoed without notification; a rejected request gives 500 |
| ProxyRepo.GetProxiedPackageAsWritten | src/proxy_repo.ts:40-56 | as written, after an upstream 200 a failed tee ends with an exception leaving the handler and no notification |
| ProxyRepo.TeeFailureSkipsNotification | src/proxy_repo.ts:40-56 | for an uncached package, an upstream 200 with a length and a failed tee, the code as written does not notify while the corrected handler notifies the directory |
| ProxyRepo.AsWrittenDiffersOnlyOnTeeFailure | src/proxy_repo.ts:40-56 | when the tee succeeds, the code as written and the corrected handler agree on everything |
| ProxyRepo.UpstreamUrlIsBasePlusPath | src/proxy_repo.ts:13-28 | for a path with a `/`, the upstream URL rebuilt from directory and file name is the base URL followed by the path |
| ProxyRepo.UpstreamUrlWithoutSlash | src/proxy_repo.ts:13-28 | for a path without `/`, the directory is empty and the upstream URL is the base URL, `/`, then the path |
| ProxyRepo.SecondFetchIsLocal | src/proxy_repo.ts:17-25 | once the file is cached, a request is served locally with its size and no upstream request |
| ProxyRepo.ProxyUrl | src/proxy_repo.ts:75-94 | the URL is base + path; the response always ends; an answered status (500 if falsy) is written with the upstream headers when Node accepts it; a transport error gives 500 |
| Server.SplitSpaces | src/server.ts:22 | `split(/\s+/)` yields at least one field and no field holds white space |
| Server.SplitFirstField | src/server.ts:22 | a white-space-free field followed by white space splits off as the first field |
| Server.SplitJoinSpaced | src/server.ts:22 | splitting fields joined by single spaces gives back the fields |
| Server.IsValidLogin | src/server.ts:12-36 | no login set: valid and nothing written; no header: one 401 "Provide authn details"; fewer than two fields or a scheme other than case-insensitive `basic`: one 401 "Wrong authn type"; valid only if the decoded second field is an allowed login |
| Server.BasicCredentials | src/server.ts:22-35 | for `Basic <token>` followed by nothing or by white space and anything, the result is valid exactly when the decoded token is an allowed login, and otherwise one 401 "Wrong user:password combo" |
| Server.SchemeWithoutToken | src/server.ts:22-26 | a header with a single field is refused as the wrong authentication type |
| Server.Classify | src/server.ts:45-95 | a missing method or URL, or a method other than GET, gives 405 before anything else; an authentication failure stops routing; `/` and the empty path go home; the public key path, when it is neither, goes to the key before `/proxied` and `/local` are tested; no branch matched means no route |
| Server.ProxiedRoute | src/server.ts:74-80 | a stripped `/proxied` path always goes to one of the three proxied handlers, and to the package handler exactly when it ends in `.apk` |
| Server.ClassifyProxied | src/server.ts:70-71 | an admitted request for `/proxied` + p that is neither the root nor the public key is routed on p alone |
| Server.ProxiedIndexOf | src/server.ts:74-77 | d + `/APKINDEX.tar.gz` is not taken for a package, and dropping the index name gives back d |
| Server.ProxiedPackageRoute | src/server.ts:70-75 | `/proxied` + p with p ending in `.apk` routes to the package handler with p |
| Server.ProxiedIndexRoute | src/server.ts:70-77 | `/proxied` + d + `/APKINDEX.tar.gz` routes to the index handler with d |
| Server.ProxiedOtherRoute | src/server.ts:70-80 | any other path under `/proxied` is proxied with the prefix stripped |
| Server.LocalSuffixesAgree | src/server.ts:82-89 | testing the suffixes on the whole pathname under `/local` is the same as testing them on the stripped path |
| Server.LocalRoutes | src/server.ts:82-94 | under `/local`, `.apk` goes to the package handler, `/APKINDEX.tar.gz` to the index handler with the directory, and anything else gets 404 |
| Server.OwnResponse | src/server.ts:45-95 | 405 "Method not allowed", 401 with the login reason, 200 text/html for home, 404 "Wrong filetype"; delegated routes leave the response untouched |
| Server.Settle | src/server.ts:96-108 | a thrown error gives 500 only if no head was sent; the response is always ended; a response with no head ends with the implicit 200 |
| Server.Handle | src/server.ts:39-114 | the response is always ended with exactly one head: 405, 401, 200 text/html or 404 for the requests `handle` answers itself; for a delegated route the head its handler wrote, else 500 with the string form of what it threw, else the implicit 200; the implicit 200 for an unmatched pathname |
| Server.HandleProxiedPackage | src/server.ts:74-75 | on a cache miss the client sees the upstream 200 head if and only if the package is announced; 500 when the upstream request is rejected or the upstream 200 has no `content-length` (nothing announced); 500 with the string form of the error when the path cannot be joined; the upstream's own status otherwise |
| Server.HandleProxied | src/server.ts:78-80 | any other `/proxied` path is answered with exactly the response `proxyUrl` wrote |
| Server.ProxiedPackageWithoutSlash | src/server.ts:70-75 | a package path with no `/` after `/proxied` (`/proxiedfoo.apk`) reaches the package handler with the bare name, which is fetched from the same upstream URL as with the `/` |
| Server.AuthDisabledAdmitsAll | src/server.ts:13-15 | with no login set every GET reaches routing |
| Cluster.Boot | src/index.ts:24-40 | with two or more cores, the start-up loop forks `parallelism` workers, each with a `message` listener, with no restarts, no timer and no fork yet counted, so the budget holds |
| Cluster.BootedRunBounded | src/index.ts:24-66 | from start-up on, `restarts` stays within its budget over any events, and without a reset at most `MAX_RETRIES + 1` replacements are forked |
| Cluster.WorkerExited | src/index.ts:42-66 | while shutting down nothing changes; otherwise the death time is recorded; a slow death forks nothing and keeps `restarts`; a quick death within the budget increments `restarts`, forks one worker without a listener and arms one reset timer; past the budget the primary stops with code 1 |
| Cluster.ResetFires | src/index.ts:59 | a pending reset timer sets `restarts` back to 0 |
| Cluster.RunWithinBudget | src/index.ts:54-59 | `restarts` stays between 0 and `MAX_RETRIES + 1` over any event sequence |
| Cluster.ShutdownIsFinal | src/index.ts:43 | once shutting down, no further event changes the state |
| Cluster.ForksBoundedWithoutReset | src/index.ts:50-60 | without a reset, every fork is counted in `restarts`, so at most `MAX_RETRIES + 1` workers are re-forked |
| Cluster.QuickDeathsGiveUp | src/index.ts:50-64 | a run of quick deaths with no reset ends, after `MAX_RETRIES + 2 - restarts` deaths, with the primary stopped with code 1 |
| Cluster.OnWorkerMessage | src/index.ts:34-39 | a `NEW_PACKAGE_ADDED` message triggers exactly one `newPackageAdded(path)` in the primary; any other message changes nothing |
| Cluster.ListenersAfterRun | src/index.ts:31-57 | after any sequence of deaths and timer firings, exactly the workers forked at start-up have a `message` listener |
| Cluster.WorkerNotificationRelayed | src/index.ts:31-39 | at any point, a start-up worker's notification has the same effect on the primary as the primary's own `newPackageAdded(path)` |
| Cluster.ReplacementNotificationDropped | src/index.ts:57 | any message from a replacement worker leaves the primary unchanged |
| Cluster.QuickReplacementLosesNotification | src/index.ts:31-57 | two workers at time 0, a death at 500 ms: the replacement's notification of an unscheduled directory schedules nothing as written, and schedules it as intended |
| Cluster.RelayIsPrimaryRun | src/index.ts:34-39 | a sequence of notifications relayed with one cluster-wide listener has the effect of the primary's own `newPackageAdded` calls on the same paths, in order |
| Cluster.IntendedRelaysEveryWorker | src/index.ts:34-39 | at any point after start-up, with one cluster-wide listener, the notifications of any workers ever forked, start-up or replacement, act as the primary's own `newPackageAdded` calls, and every notified directory ends up scheduled |

## Findings

| source | as written | input that shows it | evidently intended | confidence | as-written member | corrected member |
|---|---|---|---|---|---|---|
| src/proxy_repo.ts:48-56 | after `writeHead(200)`, a failed tee calls `writeHead(500)`, which Node refuses because a head was already written; the outer `catch` calls `writeHead(500)` again and throws again, so `newPackageAdded(directory)` is skipped and the exception reaches `handle` | package not cached, upstream answers 200 with a `content-length`, and either pipeline of the tee fails (client disconnects, disk error) | end the response and still notify the directory, as the code after the inner `catch` shows | medium, not executed (depends on Node's `ERR_HTTP_HEADERS_SENT` rule) | ProxyRepo.GetProxiedPackageAsWritten | ProxyRepo.GetProxiedPackage |
| src/index.ts:31-57 | the `message` listener is put only on the workers of the start-up loop; the worker forked by the `exit` handler gets none, and there is no cluster-wide `message` listener, so its `NEW_PACKAGE_ADDED` messages are dropped (`Cluster.Deliver`) | two workers start; one dies within 1000 ms of the primary's start and is replaced; the replacement caches a package in a directory not yet scheduled: that directory's index is never rebuilt | every worker's notification reaches `newPackageAdded` (one `cluster.on('message')` listener, `Cluster.DeliverIntended`) | high, not executed | Cluster.QuickReplacementLosesNotification | Cluster.IntendedRelaysEveryWorker |

## Left out

- Byte streaming, the tee of `pipeline`, `createWriteStream`, `readdir`, `mkdir`, `access` and `stat`: their results are inputs (`World`, the listing, `copied`, the entry tree with its unreadable directories). Nothing about file contents or partial files is modelled. `ensureDirExists` throwing has no input of its own. In `getProxiedPackage` (src/proxy_repo.ts:15) it has the effect of `joined == false`: the exception escapes before anything is written. In `buildApkIndex` (src/apk.ts:57) it has the effect of `listing == None`: a rejection before any request.
- ProxyRepo.GetProxiedPackage: an upstream 200 without `content-length` is modelled as the code handles it (500, nothing relayed, cached or announced) and is not listed as a finding, because whether the upstream mirror ever omits the length is not visible from the code.
- Spawning `apk` and downloading the upstream `APKINDEX.tar.gz` in `buildApkIndex`: only the URL, the argument list and the outcome mapping are modelled.
- The Node `http`/`https` transport, the cluster IPC transport and the wall-clock behaviour of `setTimeout`: timers and messages are logged effects, and a timer fires only when the environment says so.
- `getIndex`, `safeJoin`, `maybeStreamFile`, `streamFile` and `maybeStat` are not part of this model. They are imported but not defined in the files modelled. `safeJoin` throwing is the `joined` input, a cache hit is a recorded `streamFile` call, and `getProxiedIndex`, `getLocalIndex` and `getLocalPackage` appear only as routes.
- src/local_repo.ts and src/constants.ts: thin wrappers and constant values; the constants are parameters.
- Base64 decoding by `Buffer`: a function parameter, since Node's decoder is lenient.
- URL parsing in `handle`: the pathname is an input. The model does not check whether `new URL(...)` throws or how it normalises the path.
- `toUpperCase`/`toLowerCase`: only the ASCII letters are mapped. This does not change the comparisons with `GET` and `basic`, since no other character maps onto those letters.
- `path.join` in `findApkDirs` is plain concatenation with `/`, without normalisation.
- The reason phrase: its validation by `writeHead`, and its default. The model writes `""` when no reason is given, where Node fills in the standard phrase. Node also assigns the status and the reason before it checks the header values. So after the refused `200` head of an upstream reply without a length, the `catch`'s `writeHead(500)` keeps the reason `OK`. Only the reason phrase is affected, not the status or the headers sent.
- The HTML body, logging, timing, and the signal and uncaught-exception handlers in src/index.ts.
- Server.Handle: for a delegated route the handler's outcome is a parameter. It is connected to `ProxyRepo` for `/proxied` packages and other paths. For the public key, the proxied index and the local routes, the handlers are not part of this model.
- ProxyRepo.SecondFetchIsLocal: states that a cached package is handed to `streamFile` with its size and origin. `streamFile` receives the bare file name (src/proxy_repo.ts:21), not the cached path, so whether the cached file is what reaches the client depends on `streamFile`, which is not part of this model. For the same reason, `ProxyRepo.GetProxiedPackage`'s `escaped <==> !joined` assumes that `streamFile` does not throw on a cache hit.
- Single-process mode (src/index.ts:24-26): the fork loop, the relay and the `exit` handler do not exist there, so `Cluster` does not apply. The process's own debouncer is `Apk` with the `Primary` role.
- Cluster.ShutdownIsFinal: assumes no reset timer is pending. Shutting down through `stop(1)` clears it, and the signal-driven `stop()` is left out.

=== FILE: apk.dfy ===
/** src/apk.ts: the rebuild debounce state machine, the search for directories
    holding packages, and the construction of the `apk index` command. */
module Apk {
  import opened Wrappers
  import opened Strings
  import Files
  import Http

  const REBUILD_INDEX_AFTER_MS: int := 60000
  const NEW_PACKAGE_ADDED: string := "NEW_PACKAGE_ADDED"
  const APK_SUFFIX: string := ".apk"

  // ---------------------------------------------------------------------------
  // Rebuild debounce (`newPackageAdded`)
  // ---------------------------------------------------------------------------

  /** Whether this process is the cluster primary (`cluster.isPrimary`). */
  datatype Role = Primary | Worker

  /** `{type, data: {path}}` as sent over the cluster IPC channel. */
  datatype Message = Message(msgType: string, path: string)

  /** What the debouncer does to the outside world, in order. */
  datatype Effect =
    | TimerArmed(path: string, delayMs: int)   // setTimeout(() => buildApkIndex(path), delay)
    | MessageSent(msg: Message)                // process.send(msg)
    | RebuildStarted(path: string)             // the timer callback ran buildApkIndex(path)

  /** `scheduledPathsToRebuild` plus the timers still waiting to fire. */
  datatype Debouncer = Debouncer(role: Role, scheduled: set<string>, pending: multiset<string>, effects: seq<Effect>)

  function Start(role: Role): Debouncer {
    Debouncer(role, {}, multiset{}, [])
  }

  /** `newPackageAdded(path)`. */
  function NewPackageAdded(d: Debouncer, path: string): (d': Debouncer)
    ensures d'.role == d.role
    ensures d.role.Primary? && path !in d.scheduled ==>
      && d'.scheduled == d.scheduled + {path}
      && d'.pending == d.pending + multiset{path}
      && d'.effects == d.effects + [TimerArmed(path, REBUILD_INDEX_AFTER_MS)]
    ensures d.role.Primary? && path in d.scheduled ==> d' == d
    ensures d.role.Worker? ==>
      d' == d.(effects := d.effects + [MessageSent(Message(NEW_PACKAGE_ADDED, path))])
  {
    match d.role
    case Primary =>
      if path !in d.scheduled then
        d.(scheduled := d.scheduled + {path},
           pending := d.pending + multiset{path},
           effects := d.effects + [TimerArmed(path, REBUILD_INDEX_AFTER_MS)])
      else d
    case Worker =>
      d.(effects := d.effects + [MessageSent(Message(NEW_PACKAGE_ADDED, path))])
  }

  /** The timer armed for `path` fires: it starts a rebuild and nothing else;
      in particular `path` stays in the scheduled set. */
  function TimerFires(d: Debouncer, path: string): (d': Debouncer)
    requires path in d.pending
    ensures d'.scheduled == d.scheduled && d'.role == d.role
    ensures d'.pending == d.pending - multiset{path}
    ensures d'.effects == d.effects + [RebuildStarted(path)]
  {
    d.(pending := d.pending - multiset{path}, effects := d.effects + [RebuildStarted(path)])
  }

  datatype Event = Added(path: string) | Fired(path: string)

  /** One event; a timer that is not pending cannot fire. */
  function Step(d: Debouncer, e: Event): Debouncer {
    match e
    case Added(p) => NewPackageAdded(d, p)
    case Fired(p) => if p in d.pending then TimerFires(d, p) else d
  }

  function Run(d: Debouncer, events: seq<Event>): Debouncer
    decreases |events|
  {
    if |events| == 0 then d else Run(Step(d, events[0]), events[1..])
  }

  /** How many timers were ever armed for `p`. */
  function ArmedCount(effects: seq<Effect>, p: string): nat
    decreases |effects|
  {
    if |effects| == 0 then 0
    else
      var last := effects[|effects| - 1];
      ArmedCount(effects[..|effects| - 1], p) + (if last.TimerArmed? && last.path == p then 1 else 0)
  }

  lemma ArmedCountAppend(effects: seq<Effect>, e: Effect, p: string)
    ensures ArmedCount(effects + [e], p) == ArmedCount(effects, p) + (if e.TimerArmed? && e.path == p then 1 else 0)
  {
    assert (effects + [e])[..|effects|] == effects;
  }

  /** Each path has had exactly one timer armed if it is scheduled, and none otherwise. */
  ghost predicate OneTimerPerScheduledPath(d: Debouncer) {
    forall p :: ArmedCount(d.effects, p) == (if p in d.scheduled then 1 else 0)
  }

  lemma StepKeepsOneTimer(d: Debouncer, e: Event)
    requires OneTimerPerScheduledPath(d)
    ensures OneTimerPerScheduledPath(Step(d, e))
  {
    var d' := Step(d, e);
    forall p ensures ArmedCount(d'.effects, p) == (if p in d'.scheduled then 1 else 0) {
      match e
      case Added(q) =>
        if d.role.Worker? {
          ArmedCountAppend(d.effects, MessageSent(Message(NEW_PACKAGE_ADDED, q)), p);
        } else if q !in d.scheduled {
          ArmedCountAppend(d.effects, TimerArmed(q, REBUILD_INDEX_AFTER_MS), p);
        }
      case Fired(q) =>
        if q in d.pending {
          ArmedCountAppend(d.effects, RebuildStarted(q), p);
        }
    }
  }

  /** The scheduled set only grows, whatever happens. */
  lemma {:induction false} RunOnlyGrows(d: Debouncer, events: seq<Event>)
    ensures d.scheduled <= Run(d, events).scheduled
    ensures Run(d, events).role == d.role
    decreases |events|
  {
    if |events| > 0 {
      RunOnlyGrows(Step(d, events[0]), events[1..]);
    }
  }

  /** Over the whole life of a primary, every path arms at most one rebuild timer:
      exactly one if it was ever added, none otherwise. Because the set is never
      cleared, a path added again after its timer fired arms nothing. */
  lemma {:induction false} RunArmsOncePerPath(d: Debouncer, events: seq<Event>)
    requires OneTimerPerScheduledPath(d)
    ensures OneTimerPerScheduledPath(Run(d, events))
    ensures forall p :: ArmedCount(Run(d, events).effects, p) <= 1
    decreases |events|
  {
    if |events| > 0 {
      StepKeepsOneTimer(d, events[0]);
      RunArmsOncePerPath(Step(d, events[0]), events[1..]);
    }
    var r := Run(d, events);
    forall p ensures ArmedCount(r.effects, p) <= 1 {
      assert ArmedCount(r.effects, p) == (if p in r.scheduled then 1 else 0);
    }
  }

  function Notifications(paths: seq<string>): seq<Event>
    ensures |Notifications(paths)| == |paths|
  {
    seq(|paths|, i requires 0 <= i < |paths| => Added(paths[i]))
  }

  /** Debounce collapsing: a fresh primary that receives any burst of notifications
      schedules exactly the distinct paths and arms one timer for each of them,
      however often each path was repeated. */
  lemma {:induction false} BurstCollapses(paths: seq<string>)
    ensures Run(Start(Primary), Notifications(paths)).scheduled == set p | p in paths
    ensures forall p :: ArmedCount(Run(Start(Primary), Notifications(paths)).effects, p) == (if p in paths then 1 else 0)
  {
    PrimaryRunSchedules(Start(Primary), paths);
    RunArmsOncePerPath(Start(Primary), Notifications(paths));
    var r := Run(Start(Primary), Notifications(paths));
    forall p ensures ArmedCount(r.effects, p) == (if p in paths then 1 else 0) {
      assert p in paths <==> p in r.scheduled;
    }
  }

  lemma {:induction false} PrimaryRunSchedules(d: Debouncer, paths: seq<string>)
    requires d.role.Primary?
    ensures Run(d, Notifications(paths)).scheduled == d.scheduled + set p | p in paths
    decreases |paths|
  {
    if |paths| > 0 {
      var d1 := Step(d, Added(paths[0]));
      assert Notifications(paths)[0] == Added(paths[0]);
      assert Notifications(paths)[1..] == Notifications(paths[1..]);
      PrimaryRunSchedules(d1, paths[1..]);
      assert (set p | p in paths) == {paths[0]} + set p | p in paths[1..] by {
        assert paths == [paths[0]] + paths[1..];
      }
    } else {
      assert Run(d, Notifications(paths)) == d;
    }
  }

  /** A worker keeps no schedule: each notification becomes exactly one message to
      the primary, in order, and nothing else changes. */
  lemma {:induction false} WorkerOnlyForwards(d: Debouncer, paths: seq<string>)
    requires d.role.Worker?
    ensures Run(d, Notifications(paths)) ==
      d.(effects := d.effects + seq(|paths|, i requires 0 <= i < |paths| => MessageSent(Message(NEW_PACKAGE_ADDED, paths[i]))))
    decreases |paths|
  {
    var sent := seq(|paths|, i requires 0 <= i < |paths| => MessageSent(Message(NEW_PACKAGE_ADDED, paths[i])));
    if |paths| > 0 {
      var d1 := Step(d, Added(paths[0]));
      assert Notifications(paths)[1..] == Notifications(paths[1..]);
      WorkerOnlyForwards(d1, paths[1..]);
      var rest := seq(|paths[1..]|, i requires 0 <= i < |paths[1..]| => MessageSent(Message(NEW_PACKAGE_ADDED, paths[1..][i])));
      assert sent == [sent[0]] + rest;
      assert d1.effects + rest == d.effects + sent;
    } else {
      assert sent == [];
      assert d.effects + sent == d.effects;
    }
  }

  // ---------------------------------------------------------------------------
  // Directories holding packages (`findApkDirs`)
  // ---------------------------------------------------------------------------

  /** A directory entry as `readdir(dir, {withFileTypes: true})` reports it; the
      children of a directory are what reading that directory would return. */
  datatype Entry =
    | DirEntry(name: string, children: seq<Entry>)
    | FileEntry(name: string)
    | OtherEntry(name: string)   // symbolic links, sockets, devices: neither branch applies
    | UnreadableDir(name: string)  // a directory whose `readdir` throws

  /** `join(dir, name)` for a plain entry name. */
  function JoinPath(dir: string, name: string): string {
    dir + "/" + name
  }

  predicate IsPackageName(name: string) {
    EndsWith(name, APK_SUFFIX)
  }

  /** The walk over a tree every directory of which could be read; what
      `findApkDirs` does otherwise is `FindApkDirsOutcome`. */
  function FindApkDirs(dir: string, entries: seq<Entry>): (dirs: set<string>)
    decreases entries
  {
    if |entries| == 0 then {}
    else EntryApkDirs(dir, entries[0]) + FindApkDirs(dir, entries[1..])
  }

  function EntryApkDirs(dir: string, e: Entry): set<string>
    decreases e
  {
    match e
    case DirEntry(name, children) => FindApkDirs(JoinPath(dir, name), children)
    case FileEntry(name) => if IsPackageName(name) then {dir} else {}
    case OtherEntry(_) => {}
    case UnreadableDir(_) => {}
  }

  /** The directory reached from `dir` by following the entry indices of `route`. */
  function Descend(dir: string, entries: seq<Entry>, route: seq<nat>): Option<(string, seq<Entry>)>
    decreases |route|
  {
    if |route| == 0 then Some((dir, entries))
    else if route[0] < |entries| && entries[route[0]].DirEntry? then
      Descend(JoinPath(dir, entries[route[0]].name), entries[route[0]].children, route[1..])
    else None
  }

  predicate HoldsPackage(entries: seq<Entry>) {
    exists i :: 0 <= i < |entries| && entries[i].FileEntry? && IsPackageName(entries[i].name)
  }

  predicate PackageDirAt(dir: string, entries: seq<Entry>, route: seq<nat>, d: string) {
    match Descend(dir, entries, route)
    case None => false
    case Some(found) => found.0 == d && HoldsPackage(found.1)
  }

  /** `d` is `dir` or one of its descendants and directly holds a regular `.apk` file. */
  ghost predicate IsPackageDir(dir: string, entries: seq<Entry>, d: string) {
    exists route :: PackageDirAt(dir, entries, route, d)
  }

  lemma EntryDirsIncluded(dir: string, entries: seq<Entry>, i: nat)
    requires i < |entries|
    ensures EntryApkDirs(dir, entries[i]) <= FindApkDirs(dir, entries)
    decreases i
  {
    if i > 0 {
      EntryDirsIncluded(dir, entries[1..], i - 1);
    }
  }

  lemma {:induction false} FindApkDirsComplete(dir: string, entries: seq<Entry>, route: seq<nat>, d: string)
    requires PackageDirAt(dir, entries, route, d)
    ensures d in FindApkDirs(dir, entries)
    decreases |route|
  {
    if |route| == 0 {
      var i :| 0 <= i < |entries| && entries[i].FileEntry? && IsPackageName(entries[i].name);
      EntryDirsIncluded(dir, entries, i);
    } else {
      var e := entries[route[0]];
      FindApkDirsComplete(JoinPath(dir, e.name), e.children, route[1..], d);
      EntryDirsIncluded(dir, entries, route[0]);
    }
  }

  lemma {:induction false} FindApkDirsSound(dir: string, entries: seq<Entry>, d: string)
    requires d in FindApkDirs(dir, entries)
    ensures IsPackageDir(dir, entries, d)
    decreases entries
  {
    var e := entries[0];
    if d in EntryApkDirs(dir, e) {
      match e
      case DirEntry(name, children) =>
        FindApkDirsSound(JoinPath(dir, name), children, d);
        var route :| PackageDirAt(JoinPath(dir, name), children, route, d);
        assert ([0] + route)[1..] == route;
        assert PackageDirAt(dir, entries, [0] + route, d);
      case FileEntry(name) =>
        assert PackageDirAt(dir, entries, [], d);
    } else {
      FindApkDirsSound(dir, entries[1..], d);
      var route :| PackageDirAt(dir, entries[1..], route, d);
      if |route| == 0 {
        var i :| 0 <= i < |entries[1..]| && entries[1..][i].FileEntry? && IsPackageName(entries[1..][i].name);
        assert entries[i + 1] == entries[1..][i];
        assert PackageDirAt(dir, entries, [], d);
      } else {
        var shifted := [route[0] + 1] + route[1..];
        assert shifted[1..] == route[1..];
        assert PackageDirAt(dir, entries, shifted, d);
      }
    }
  }

  /** `findApkDirs(dir)` holds exactly the directories at or below `dir` that
      directly contain a regular file whose name ends in `.apk`. */
  lemma FindApkDirsExact(dir: string, entries: seq<Entry>, d: string)
    ensures d in FindApkDirs(dir, entries) <==> IsPackageDir(dir, entries, d)
  {
    if d in FindApkDirs(dir, entries) {
      FindApkDirsSound(dir, entries, d);
    }
    if IsPackageDir(dir, entries, d) {
      var route :| PackageDirAt(dir, entries, route, d);
      FindApkDirsComplete(dir, entries, route, d);
    }
  }

  /** The statement form of `FindApkDirsExact`, for every directory at once. */
  lemma FindApkDirsEverywhere(dir: string, entries: seq<Entry>)
    ensures forall d :: d in FindApkDirs(dir, entries) <==> IsPackageDir(dir, entries, d)
  {
    forall d {
      FindApkDirsExact(dir, entries, d);
    }
  }

  /** Every directory of the tree could be read. */
  predicate AllReadable(entries: seq<Entry>)
    decreases entries
  {
    |entries| == 0 || (EntryReadable(entries[0]) && AllReadable(entries[1..]))
  }

  predicate EntryReadable(e: Entry)
    decreases e
  {
    match e
    case DirEntry(_, children) => AllReadable(children)
    case UnreadableDir(_) => false
    case _ => true
  }

  /** The directory reached by `route` lists a directory that cannot be read. */
  predicate UnreadableAt(dir: string, entries: seq<Entry>, route: seq<nat>) {
    match Descend(dir, entries, route)
    case None => false
    case Some(found) => exists i :: 0 <= i < |found.1| && found.1[i].UnreadableDir?
  }

  ghost predicate HasUnreadableDir(dir: string, entries: seq<Entry>) {
    exists route :: UnreadableAt(dir, entries, route)
  }

  lemma AllReadableAt(entries: seq<Entry>, i: nat)
    requires AllReadable(entries) && i < |entries|
    ensures EntryReadable(entries[i])
    decreases i
  {
    if i > 0 {
      AllReadableAt(entries[1..], i - 1);
    }
  }

  lemma {:induction false} ReadableHasNoUnreadable(dir: string, entries: seq<Entry>, route: seq<nat>)
    requires AllReadable(entries)
    ensures !UnreadableAt(dir, entries, route)
    decreases |route|
  {
    if |route| == 0 {
      forall i | 0 <= i < |entries| ensures !entries[i].UnreadableDir? {
        AllReadableAt(entries, i);
      }
    } else if route[0] < |entries| && entries[route[0]].DirEntry? {
      var e := entries[route[0]];
      AllReadableAt(entries, route[0]);
      ReadableHasNoUnreadable(JoinPath(dir, e.name), e.children, route[1..]);
    }
  }

  lemma {:induction false} UnreadableIsReached(dir: string, entries: seq<Entry>)
    requires !AllReadable(entries)
    ensures HasUnreadableDir(dir, entries)
    decreases entries
  {
    var e := entries[0];
    if !EntryReadable(e) {
      match e
      case UnreadableDir(_) =>
        assert UnreadableAt(dir, entries, []);
      case DirEntry(name, children) =>
        UnreadableIsReached(JoinPath(dir, name), children);
        var route :| UnreadableAt(JoinPath(dir, name), children, route);
        assert ([0] + route)[1..] == route;
        assert UnreadableAt(dir, entries, [0] + route);
    } else {
      UnreadableIsReached(dir, entries[1..]);
      var route :| UnreadableAt(dir, entries[1..], route);
      if |route| == 0 {
        var i :| 0 <= i < |entries[1..]| && entries[1..][i].UnreadableDir?;
        assert entries[i + 1] == entries[1..][i];
        assert UnreadableAt(dir, entries, []);
      } else {
        var shifted := [route[0] + 1] + route[1..];
        assert shifted[1..] == route[1..];
        assert UnreadableAt(dir, entries, shifted);
      }
    }
  }

  /** The recursive readability test agrees with the route-based one: a tree is
      readable exactly when no route reaches a directory that cannot be read. */
  lemma AllReadableExact(dir: string, entries: seq<Entry>)
    ensures AllReadable(entries) <==> !HasUnreadableDir(dir, entries)
  {
    if AllReadable(entries) {
      forall route ensures !UnreadableAt(dir, entries, route) {
        ReadableHasNoUnreadable(dir, entries, route);
      }
    } else {
      UnreadableIsReached(dir, entries);
    }
  }

  /** `findApkDirs(dir)` with the outcome of every `readdir` it makes: `listing` is
      `None` when reading `dir` itself throws. Nothing catches a failed `readdir`,
      so the walk rejects when any directory it reaches cannot be read, and
      otherwise yields exactly the package directories. */
  function FindApkDirsOutcome(dir: string, listing: Option<seq<Entry>>): (r: Option<set<string>>)
    ensures r.None? <==> listing.None? || HasUnreadableDir(dir, listing.value)
    ensures r.Some? ==> forall d :: d in r.value <==> IsPackageDir(dir, listing.value, d)
  {
    match listing
    case None => None
    case Some(entries) =>
      AllReadableExact(dir, entries);
      if AllReadable(entries) then
        FindApkDirsEverywhere(dir, entries);
        Some(FindApkDirs(dir, entries))
      else None
  }

  // ---------------------------------------------------------------------------
  // The `apk index` command (`buildApkIndex`)
  // ---------------------------------------------------------------------------

  /** The `.apk` entries of a listing, each prefixed with `./`, in listing order. */
  function IndexFiles(listing: seq<string>): (files: seq<string>)
    ensures |files| <= |listing|
    ensures forall i :: 0 <= i < |files| ==>
      |files[i]| >= 2 && files[i][..2] == "./" && IsPackageName(files[i][2..]) && files[i][2..] in listing
    ensures forall i :: 0 <= i < |listing| && IsPackageName(listing[i]) ==> "./" + listing[i] in files
    decreases |listing|
  {
    if |listing| == 0 then []
    else
      var rest := IndexFiles(listing[1..]);
      if IsPackageName(listing[0]) then ["./" + listing[0]] + rest else rest
  }

  /** Filtering distributes over concatenation: the order of the listing is kept. */
  lemma {:induction false} IndexFilesAppend(a: seq<string>, b: seq<string>)
    ensures IndexFiles(a + b) == IndexFiles(a) + IndexFiles(b)
    decreases |a|
  {
    if |a| > 0 {
      assert (a + b)[1..] == a[1..] + b;
      IndexFilesAppend(a[1..], b);
    } else {
      assert a + b == b;
    }
  }

  /** `basename(p)` of Node's POSIX path module: trailing slashes are ignored and
      the result is the text after the last remaining `/`. */
  function Basename(p: string): (base: string)
    ensures '/' !in base
    ensures |p| > 0 && p[|p| - 1] != '/' ==> base == Files.GetDirectoryAndFilename(p).value.filename
    // for every path: the text after the last `/` once the trailing slashes are
    // dropped, the whole trimmed path when it has no `/`, and "" for "" or "///"
    ensures
      var q := TrimTrailingSlashes(p);
      base == match Files.LastIndexOf(q, '/')
        case None => q
        case Some(k) => q[k + 1..]
  {
    var q := TrimTrailingSlashes(p);
    Files.DirectoryIsBeforeLastSlash(q);
    Files.GetDirectoryAndFilename(q).value.filename
  }

  /** Drops the `/` characters at the end, and only those. */
  function TrimTrailingSlashes(p: string): (q: string)
    ensures |q| <= |p| && q == p[..|q|]
    ensures q == "" || q[|q| - 1] != '/'
    ensures forall i :: |q| <= i < |p| ==> p[i] == '/'
    ensures |p| > 0 && p[|p| - 1] != '/' ==> q == p
  {
    if |p| > 0 && p[|p| - 1] == '/' then TrimTrailingSlashes(p[..|p| - 1]) else p
  }

  /** `basename("/v3.18/main/")` is `main`, as for the directory a package path
      with a doubled `/` yields. */
  lemma BasenameOfDirectoryWithSlash()
    ensures Basename("/v3.18/main/") == "main"
  {
    var q := TrimTrailingSlashes("/v3.18/main/");
    assert q == "/v3.18/main";
    assert Files.LastIndexOf(q, '/') == Some(6);
  }

  const FIXED_FLAGS: seq<string> := ["index", "--allow-untrusted", "--no-interactive", "--merge",
    "-x", "ORIG_APKINDEX.tar.gz", "-o", "APKINDEX.tar.gz", "--rewrite-arch"]

  /** `--rewrite-arch` closes the fixed flags, so the architecture follows it. */
  lemma RewriteArchIsLastFlag()
    ensures |FIXED_FLAGS| == 9 && FIXED_FLAGS[8] == "--rewrite-arch"
  {
  }

  /** The arguments of `apk`: the fixed flags, the architecture right after
      `--rewrite-arch`, then the package files. */
  function IndexArgs(abstractDir: string, listing: seq<string>): (args: seq<string>)
    ensures |args| == 10 + |IndexFiles(listing)|
    ensures args[..9] == FIXED_FLAGS && args[8] == "--rewrite-arch"
    ensures args[9] == Basename(abstractDir)
    ensures args[10..] == IndexFiles(listing)
  {
    var arch := Basename(abstractDir);
    var files := IndexFiles(listing);
    var args := FIXED_FLAGS + [arch] + files;
    RewriteArchIsLastFlag();
    assert args[..9] == FIXED_FLAGS && args[9] == arch;
    assert args[10..] == files;
    args
  }

  /** The `close` event of the `apk` process: only exit code 0 is success. A process
      killed by a signal reports no code. */
  function IndexExit(code: Option<int>): (r: Result<bool, Option<int>>)
    ensures r.Success? <==> code == Some(0)
    ensures r.Success? ==> r.value
    ensures r.Failure? ==> r.error == code
  {
    if code == Some(0) then Success(true) else Failure(code)
  }

  datatype BuildFailure =
    | ListingFailed              // ensureDirExists(localDir) or readdir(localDir) threw
    | UpstreamIndexRejected      // request(...) for the upstream APKINDEX rejected
    | CopyFailed                 // writing ORIG_APKINDEX.tar.gz failed
    | ToolFailed(code: Option<int>)

  datatype IndexBuild = IndexBuild(
    upstreamIndexUrl: Option<string>,
    command: Option<seq<string>>,
    outcome: Result<bool, BuildFailure>)

  /** `buildApkIndex(abstractDir)`, given what the filesystem, the upstream server
      and the `apk` tool do: `listing` is `None` when creating or reading the
      directory throws. */
  function BuildApkIndex(baseUrl: string, abstractDir: string, listing: Option<seq<string>>,
                         upstream: Http.Transport, copied: bool, exitCode: Option<int>): (b: IndexBuild)
    ensures b.outcome.Success? <==>
      listing.Some? && Http.Request(upstream, false).Resolved? && copied && exitCode == Some(0)
    ensures b.command.Some? <==> listing.Some? && Http.Request(upstream, false).Resolved? && copied
    ensures b.command.Some? ==> b.command.value == IndexArgs(abstractDir, listing.value)
    ensures listing.Some? ==> b.upstreamIndexUrl == Some(baseUrl + abstractDir + "/APKINDEX.tar.gz")
    ensures b.outcome.Failure? && b.command.Some? ==> b.outcome.error == ToolFailed(exitCode)
  {
    match listing
    case None => IndexBuild(None, None, Failure(ListingFailed))
    case Some(names) =>
      var url := baseUrl + abstractDir + "/APKINDEX.tar.gz";
      if Http.Request(upstream, false).Rejected? then IndexBuild(Some(url), None, Failure(UpstreamIndexRejected))
      else if !copied then IndexBuild(Some(url), None, Failure(CopyFailed))
      else
        var args := IndexArgs(abstractDir, names);
        match IndexExit(exitCode)
        case Success(ok) => IndexBuild(Some(url), Some(args), Success(ok))
        case Failure(code) => IndexBuild(Some(url), Some(args), Failure(ToolFailed(code)))
  }
}

=== FILE: cluster.dfy ===
/** src/index.ts: the primary's supervisor, which restarts workers that die
    quickly with a retry budget, and its relay of worker notifications. */
module Cluster {
  import Apk

  const FAILURE_TO_START_MS: int := 1000
  const MAX_RETRIES: int := 5
  /** Delay of the timer that forgives earlier restarts. */
  const RESET_AFTER_MS: int := FAILURE_TO_START_MS + 10

  /** `happyRestartTimeout`: undefined, a timer still pending, or a timer that has
      fired (the callback does not set the variable back to undefined). */
  datatype ResetTimer = Unset | Pending | Spent

  datatype Action = Forked | ResetArmed(delayMs: int) | Stopped(exitCode: int)

  /** The primary's module-level state, with times in milliseconds. `listening`
      has one entry per worker forked so far, in fork order: whether the primary
      put a `message` listener on it. */
  datatype Supervisor = Supervisor(
    restarts: int,
    lastDeath: int,
    shuttingDown: bool,
    timer: ResetTimer,
    actions: seq<Action>,
    listening: seq<bool>)

  /** The primary branch at start-up: `lastDeath` is the start time, and the loop
      forks `parallelism` workers, putting a `message` listener on each. A single
      core takes the other branch (one process that serves requests itself), so
      a supervisor exists only for two or more. The state it starts from meets
      the hypotheses of the run lemmas below. */
  function Boot(now: int, parallelism: nat): (s: Supervisor)
    requires parallelism >= 2
    ensures s.restarts == 0 && s.lastDeath == now && !s.shuttingDown && s.timer == Unset
    ensures |s.listening| == parallelism
    ensures forall i :: 0 <= i < |s.listening| ==> s.listening[i]
    ensures WithinBudget(s) && ForkCount(s.actions) == s.restarts
  {
    Supervisor(0, now, false, Unset, [], seq(parallelism, _ => true))
  }

  /** The `exit` handler of the cluster, for a worker that died at `now`. */
  function WorkerExited(s: Supervisor, now: int): (s': Supervisor)
    ensures s.shuttingDown ==> s' == s
    ensures !s.shuttingDown ==> s'.lastDeath == now
    // a death long after the previous one forks nothing and forgives nothing
    ensures !s.shuttingDown && now - s.lastDeath > FAILURE_TO_START_MS ==>
      s' == s.(lastDeath := now)
    // a quick death within the budget forks one worker and arms a reset timer
    ensures !s.shuttingDown && now - s.lastDeath <= FAILURE_TO_START_MS && s.restarts <= MAX_RETRIES ==>
      && s'.restarts == s.restarts + 1
      && s'.actions == s.actions + [Forked, ResetArmed(RESET_AFTER_MS)]
      && s'.timer == Pending && !s'.shuttingDown
      // the replacement gets no `message` listener
      && s'.listening == s.listening + [false]
    // a quick death past the budget stops the primary with exit code 1
    ensures !s.shuttingDown && now - s.lastDeath <= FAILURE_TO_START_MS && s.restarts > MAX_RETRIES ==>
      && s'.restarts == s.restarts
      && s'.actions == s.actions + [Stopped(1)]
      && s'.shuttingDown && s'.timer == Unset && s'.listening == s.listening
  {
    if s.shuttingDown then s
    else
      var sinceLastDeath := now - s.lastDeath;
      var s1 := s.(lastDeath := now);
      if sinceLastDeath <= FAILURE_TO_START_MS then
        // clearTimeout(happyRestartTimeout); happyRestartTimeout = undefined
        var s2 := s1.(timer := Unset);
        if s2.restarts <= MAX_RETRIES then
          // cluster.fork(), with no listener put on the new worker
          var s3 := s2.(restarts := s2.restarts + 1, actions := s2.actions + [Forked],
                        listening := s2.listening + [false]);
          // the timer was just cleared, so the `=== undefined` guard always holds
          if s3.timer == Unset then
            s3.(timer := Pending, actions := s3.actions + [ResetArmed(RESET_AFTER_MS)])
          else s3
        else
          // stop(1) sets shuttingDown before the process exits
          s2.(shuttingDown := true, actions := s2.actions + [Stopped(1)])
      else s1
  }

  /** The reset timer fires, if one is pending: `restarts = 0`. */
  function ResetFires(s: Supervisor): (s': Supervisor)
    ensures s.timer == Pending ==> s' == s.(restarts := 0, timer := Spent)
    ensures s.timer != Pending ==> s' == s
  {
    if s.timer == Pending then s.(restarts := 0, timer := Spent) else s
  }

  datatype Event = Exit(at: int) | ResetTimerFired

  function Step(s: Supervisor, e: Event): Supervisor {
    match e
    case Exit(t) => WorkerExited(s, t)
    case ResetTimerFired => ResetFires(s)
  }

  function Run(s: Supervisor, events: seq<Event>): Supervisor
    decreases |events|
  {
    if |events| == 0 then s else Run(Step(s, events[0]), events[1..])
  }

  ghost predicate WithinBudget(s: Supervisor) {
    0 <= s.restarts <= MAX_RETRIES + 1
  }

  /** `restarts` stays between 0 and `MAX_RETRIES + 1` whatever happens. */
  lemma {:induction false} RunWithinBudget(s: Supervisor, events: seq<Event>)
    requires WithinBudget(s)
    ensures WithinBudget(Run(s, events))
    decreases |events|
  {
    if |events| > 0 {
      RunWithinBudget(Step(s, events[0]), events[1..]);
    }
  }

  /** Once the primary is shutting down (which clears any pending reset timer),
      no event changes anything. */
  lemma {:induction false} ShutdownIsFinal(s: Supervisor, events: seq<Event>)
    requires s.shuttingDown && s.timer != Pending
    ensures Run(s, events) == s
    decreases |events|
  {
    if |events| > 0 {
      ShutdownIsFinal(Step(s, events[0]), events[1..]);
    }
  }

  function ForkCount(actions: seq<Action>): nat
    decreases |actions|
  {
    if |actions| == 0 then 0
    else ForkCount(actions[..|actions| - 1]) + (if actions[|actions| - 1] == Forked then 1 else 0)
  }

  lemma {:induction false} ForkCountAppend(actions: seq<Action>, more: seq<Action>)
    ensures ForkCount(actions + more) == ForkCount(actions) + ForkCount(more)
    decreases |more|
  {
    if |more| > 0 {
      var init := more[..|more| - 1];
      assert (actions + more)[..|actions + more| - 1] == actions + init;
      ForkCountAppend(actions, init);
    } else {
      assert actions + more == actions;
    }
  }

  predicate OnlyExits(events: seq<Event>) {
    forall i :: 0 <= i < |events| ==> events[i].Exit?
  }

  /** Without the reset timer firing, every fork is counted in `restarts`, so the
      primary forks at most `MAX_RETRIES + 1` replacement workers. */
  lemma {:induction false} ForksBoundedWithoutReset(s: Supervisor, events: seq<Event>)
    requires OnlyExits(events)
    requires ForkCount(s.actions) == s.restarts && WithinBudget(s)
    ensures ForkCount(Run(s, events).actions) == Run(s, events).restarts
    ensures ForkCount(Run(s, events).actions) <= MAX_RETRIES + 1
    decreases |events|
  {
    if |events| > 0 {
      var s' := Step(s, events[0]);
      var t := events[0].at;
      if !s.shuttingDown && t - s.lastDeath <= FAILURE_TO_START_MS {
        if s.restarts <= MAX_RETRIES {
          ForkCountAppend(s.actions, [Forked, ResetArmed(RESET_AFTER_MS)]);
        } else {
          ForkCountAppend(s.actions, [Stopped(1)]);
        }
      }
      assert OnlyExits(events[1..]) by {
        forall i | 0 <= i < |events[1..]| ensures events[1..][i].Exit? {
          assert events[1..][i] == events[i + 1];
        }
      }
      ForksBoundedWithoutReset(s', events[1..]);
    } else {
      RunWithinBudget(s, events);
    }
  }

  /** A primary that keeps seeing quick deaths, with no reset in between, gives up:
      after `MAX_RETRIES + 2 - restarts` of them it has stopped with exit code 1. */
  lemma {:induction false} QuickDeathsGiveUp(s: Supervisor, times: seq<int>)
    requires !s.shuttingDown && WithinBudget(s)
    requires |times| == MAX_RETRIES + 2 - s.restarts
    requires |times| > 0 ==> times[0] - s.lastDeath <= FAILURE_TO_START_MS
    requires forall i :: 0 < i < |times| ==> times[i] - times[i - 1] <= FAILURE_TO_START_MS
    ensures Run(s, Exits(times)).shuttingDown
    ensures |Run(s, Exits(times)).actions| > 0
    ensures Run(s, Exits(times)).actions[|Run(s, Exits(times)).actions| - 1] == Stopped(1)
    decreases |times|
  {
    var s' := WorkerExited(s, times[0]);
    assert Exits(times)[0] == Exit(times[0]);
    assert Exits(times)[1..] == Exits(times[1..]);
    if s.restarts <= MAX_RETRIES {
      assert forall i :: 0 < i < |times[1..]| ==> times[1..][i] - times[1..][i - 1] <= FAILURE_TO_START_MS by {
        forall i | 0 < i < |times[1..]| ensures times[1..][i] - times[1..][i - 1] <= FAILURE_TO_START_MS {
          assert times[1..][i] == times[i + 1] && times[1..][i - 1] == times[i];
        }
      }
      QuickDeathsGiveUp(s', times[1..]);
    } else {
      assert |times| == 1;
      assert Exits(times[1..]) == [];
    }
  }

  /** From start-up on, whatever happens, `restarts` stays within its budget, and
      while no reset timer fires at most `MAX_RETRIES + 1` replacements are forked. */
  lemma BootedRunBounded(now: int, parallelism: nat, events: seq<Event>)
    requires parallelism >= 2
    ensures WithinBudget(Run(Boot(now, parallelism), events))
    ensures OnlyExits(events) ==> ForkCount(Run(Boot(now, parallelism), events).actions) <= MAX_RETRIES + 1
  {
    RunWithinBudget(Boot(now, parallelism), events);
    if OnlyExits(events) {
      ForksBoundedWithoutReset(Boot(now, parallelism), events);
    }
  }

  function Exits(times: seq<int>): (events: seq<Event>)
    ensures |events| == |times| && OnlyExits(events)
  {
    seq(|times|, i requires 0 <= i < |times| => Exit(times[i]))
  }

  // ---------------------------------------------------------------------------
  // Relaying `NEW_PACKAGE_ADDED` from the workers
  // ---------------------------------------------------------------------------

  /** The body of the `message` listener the start-up loop puts on each worker it
      forks. */
  function OnWorkerMessage(primary: Apk.Debouncer, msg: Apk.Message): (d': Apk.Debouncer)
    requires primary.role.Primary?
    ensures msg.msgType == Apk.NEW_PACKAGE_ADDED ==> d' == Apk.NewPackageAdded(primary, msg.path)
    ensures msg.msgType != Apk.NEW_PACKAGE_ADDED ==> d' == primary
  {
    if msg.msgType == Apk.NEW_PACKAGE_ADDED then Apk.NewPackageAdded(primary, msg.path) else primary
  }

  /** A message from worker number `worker`, as written: only a worker with a
      listener has its message handled; there is no cluster-wide `message`
      listener, so any other worker's message is dropped. */
  function Deliver(s: Supervisor, primary: Apk.Debouncer, worker: nat, msg: Apk.Message): (d': Apk.Debouncer)
    requires primary.role.Primary? && worker < |s.listening|
  {
    if s.listening[worker] then OnWorkerMessage(primary, msg) else primary
  }

  /** A message from any worker, as evidently intended: one cluster-wide listener
      (`cluster.on('message', ...)`) handles the messages of every worker,
      whether forked at start-up or as a replacement. */
  function DeliverIntended(s: Supervisor, primary: Apk.Debouncer, worker: nat, msg: Apk.Message): (d': Apk.Debouncer)
    requires primary.role.Primary? && worker < |s.listening|
  {
    OnWorkerMessage(primary, msg)
  }

  /** Whatever happens after start-up, exactly the workers forked by the start-up
      loop have a listener: every replacement has none. */
  lemma {:induction false} ListenersAfterRun(s: Supervisor, parallelism: nat, events: seq<Event>)
    requires |s.listening| >= parallelism
    requires forall i :: 0 <= i < |s.listening| ==> (s.listening[i] <==> i < parallelism)
    ensures |Run(s, events).listening| >= |s.listening|
    ensures forall i :: 0 <= i < |Run(s, events).listening| ==>
      (Run(s, events).listening[i] <==> i < parallelism)
    decreases |events|
  {
    if |events| > 0 {
      var s' := Step(s, events[0]);
      assert |s'.listening| >= |s.listening|;
      assert forall i :: 0 <= i < |s'.listening| ==> (s'.listening[i] <==> i < parallelism) by {
        if s'.listening != s.listening {
          assert s'.listening == s.listening + [false];
        }
      }
      ListenersAfterRun(s', parallelism, events[1..]);
    }
  }

  /** A package seen by a start-up worker reaches the primary's schedule exactly
      as if the primary had seen it, at any later point: the worker sends one
      message and changes nothing else, and the listener turns that message into
      one `newPackageAdded` call. */
  lemma WorkerNotificationRelayed(now: int, parallelism: nat, events: seq<Event>, id: nat,
                                  worker: Apk.Debouncer, primary: Apk.Debouncer, path: string)
    requires 2 <= parallelism && id < parallelism
    requires worker.role.Worker? && primary.role.Primary?
    ensures
      var s := Run(Boot(now, parallelism), events);
      var w' := Apk.NewPackageAdded(worker, path);
      && w'.scheduled == worker.scheduled && w'.pending == worker.pending
      && |w'.effects| == |worker.effects| + 1
      && w'.effects[|worker.effects|].MessageSent?
      && id < |s.listening|
      && Deliver(s, primary, id, w'.effects[|worker.effects|].msg) == Apk.NewPackageAdded(primary, path)
  {
    ListenersAfterRun(Boot(now, parallelism), parallelism, events);
  }

  /** As written: a worker forked to replace one that died has no listener, so its
      notifications never reach the primary, whatever the message says. */
  lemma ReplacementNotificationDropped(now: int, parallelism: nat, events: seq<Event>, id: nat,
                                       primary: Apk.Debouncer, msg: Apk.Message)
    requires primary.role.Primary? && 2 <= parallelism
    requires parallelism <= id < |Run(Boot(now, parallelism), events).listening|
    ensures Deliver(Run(Boot(now, parallelism), events), primary, id, msg) == primary
  {
    ListenersAfterRun(Boot(now, parallelism), parallelism, events);
  }

  /** The input that shows the difference: two workers start at time 0, one dies
      at 500 ms and is replaced as worker 2, and worker 2 then stores a package in
      a directory the primary has not scheduled. As written nothing is scheduled;
      as intended the directory is scheduled and its timer armed. */
  lemma QuickReplacementLosesNotification(primary: Apk.Debouncer, path: string)
    requires primary.role.Primary? && path !in primary.scheduled
    ensures
      var s := Run(Boot(0, 2), [Exit(500)]);
      var msg := Apk.Message(Apk.NEW_PACKAGE_ADDED, path);
      && |s.listening| == 3
      && Deliver(s, primary, 2, msg) == primary
      && path in DeliverIntended(s, primary, 2, msg).scheduled
  {
    var s := Run(Boot(0, 2), [Exit(500)]);
    assert s == WorkerExited(Boot(0, 2), 500);
    assert s.listening == [true, true, false];
  }

  /** The paths of a sequence of worker notifications `(worker, path)`, in order. */
  function NotifiedPaths(notes: seq<(nat, string)>): (paths: seq<string>)
    ensures |paths| == |notes|
    ensures forall i :: 0 <= i < |notes| ==> paths[i] == notes[i].1
  {
    seq(|notes|, i requires 0 <= i < |notes| => notes[i].1)
  }

  /** The primary receiving the `NEW_PACKAGE_ADDED` messages `notes`, one after the
      other, each from the worker it names, with one cluster-wide listener. */
  function RelayIntended(s: Supervisor, primary: Apk.Debouncer, notes: seq<(nat, string)>): (d': Apk.Debouncer)
    requires primary.role.Primary?
    requires forall i :: 0 <= i < |notes| ==> notes[i].0 < |s.listening|
    ensures d'.role.Primary?
    decreases |notes|
  {
    if |notes| == 0 then primary
    else
      var d := DeliverIntended(s, primary, notes[0].0, Apk.Message(Apk.NEW_PACKAGE_ADDED, notes[0].1));
      RelayIntended(s, d, notes[1..])
  }

  lemma {:induction false} RelayIsPrimaryRun(s: Supervisor, primary: Apk.Debouncer, notes: seq<(nat, string)>)
    requires primary.role.Primary?
    requires forall i :: 0 <= i < |notes| ==> notes[i].0 < |s.listening|
    ensures RelayIntended(s, primary, notes) == Apk.Run(primary, Apk.Notifications(NotifiedPaths(notes)))
    decreases |notes|
  {
    var events := Apk.Notifications(NotifiedPaths(notes));
    if |notes| > 0 {
      var d := DeliverIntended(s, primary, notes[0].0, Apk.Message(Apk.NEW_PACKAGE_ADDED, notes[0].1));
      assert events[0] == Apk.Added(notes[0].1);
      assert d == Apk.Step(primary, events[0]);
      assert events[1..] == Apk.Notifications(NotifiedPaths(notes[1..]));
      RelayIsPrimaryRun(s, d, notes[1..]);
    }
  }

  /** As intended: whatever happened since start-up, the notifications of any
      workers the primary ever forked, start-up or replacement, have the effect of
      the primary's own `newPackageAdded` calls on the same paths, so every
      notified directory ends up scheduled. */
  lemma IntendedRelaysEveryWorker(now: int, parallelism: nat, events: seq<Event>,
                                  primary: Apk.Debouncer, notes: seq<(nat, string)>)
    requires primary.role.Primary? && 2 <= parallelism
    requires forall i :: 0 <= i < |notes| ==> notes[i].0 < |Run(Boot(now, parallelism), events).listening|
    ensures RelayIntended(Run(Boot(now, parallelism), events), primary, notes)
      == Apk.Run(primary, Apk.Notifications(NotifiedPaths(notes)))
    ensures RelayIntended(Run(Boot(now, parallelism), events), primary, notes).scheduled
      == primary.scheduled + set n | n in notes :: n.1
  {
    var paths := NotifiedPaths(notes);
    RelayIsPrimaryRun(Run(Boot(now, parallelism), events), primary, notes);
    Apk.PrimaryRunSchedules(primary, paths);
    assert (set p | p in paths) == set n | n in notes :: n.1 by {
      forall p | p in paths ensures p in set n | n in notes :: n.1 {
        var i :| 0 <= i < |paths| && paths[i] == p;
        assert notes[i] in notes;
      }
      forall n | n in notes ensures n.1 in paths {
        var i :| 0 <= i < |notes| && notes[i] == n;
        assert paths[i] == n.1;
      }
    }
  }
}

=== FILE: files.dfy ===
/** src/files.ts: splitting a request path into its directory and file name. */
module Files {
  import opened Wrappers

  /** `s.split(sep)` for a one-character separator: the maximal separator-free
      pieces, always at least one (the empty string splits into `[""]`). */
  function Split(s: string, sep: char): (parts: seq<string>)
    ensures |parts| >= 1
    ensures forall i :: 0 <= i < |parts| ==> sep !in parts[i]
    decreases |s|
  {
    if |s| == 0 then [""]
    else
      var rest := Split(s[1..], sep);
      if s[0] == sep then [""] + rest
      else [[s[0]] + rest[0]] + rest[1..]
  }

  /** `parts.join(sep)`: the empty array joins to the empty string. */
  function Join(parts: seq<string>, sep: char): string
    decreases |parts|
  {
    if |parts| == 0 then ""
    else if |parts| == 1 then parts[0]
    else parts[0] + [sep] + Join(parts[1..], sep)
  }

  /** Joining the pieces of a split gives back the original string. */
  lemma {:induction false} JoinSplit(s: string, sep: char)
    ensures Join(Split(s, sep), sep) == s
    decreases |s|
  {
    if |s| > 0 {
      var rest := Split(s[1..], sep);
      JoinSplit(s[1..], sep);
      if s[0] == sep {
        assert Join([""] + rest, sep) == "" + [sep] + Join(rest, sep) by {
          assert ([""] + rest)[1..] == rest;
        }
        assert s == [sep] + s[1..];
      } else {
        var parts := [[s[0]] + rest[0]] + rest[1..];
        if |rest| == 1 {
          assert Join(parts, sep) == [s[0]] + rest[0];
        } else {
          assert parts[1..] == rest[1..];
          assert Join(parts, sep) == [s[0]] + rest[0] + [sep] + Join(rest[1..], sep);
        }
        assert s == [s[0]] + s[1..];
      }
    }
  }

  lemma {:induction false} SplitPiece(p: string, sep: char)
    requires sep !in p
    ensures Split(p, sep) == [p]
    decreases |p|
  {
    if |p| > 0 {
      SplitPiece(p[1..], sep);
      assert [p[0]] + p[1..] == p;
    }
  }

  lemma {:induction false} SplitPieceThen(p: string, sep: char, t: string)
    requires sep !in p
    ensures Split(p + [sep] + t, sep) == [p] + Split(t, sep)
    decreases |p|
  {
    var s := p + [sep] + t;
    if |p| == 0 {
      assert s[1..] == t;
    } else {
      assert s[1..] == p[1..] + [sep] + t;
      SplitPieceThen(p[1..], sep, t);
      assert [p[0]] + p[1..] == p;
    }
  }

  /** Splitting a join of separator-free pieces gives back the pieces. */
  lemma {:induction false} SplitJoin(parts: seq<string>, sep: char)
    requires |parts| >= 1
    requires forall i :: 0 <= i < |parts| ==> sep !in parts[i]
    ensures Split(Join(parts, sep), sep) == parts
    decreases |parts|
  {
    if |parts| == 1 {
      SplitPiece(parts[0], sep);
    } else {
      SplitJoin(parts[1..], sep);
      SplitPieceThen(parts[0], sep, Join(parts[1..], sep));
      assert [parts[0]] + parts[1..] == parts;
    }
  }

  /** Joining all pieces is joining all but the last, the separator, then the last. */
  lemma {:induction false} JoinLast(parts: seq<string>, sep: char)
    requires |parts| >= 2
    ensures Join(parts, sep) == Join(parts[..|parts| - 1], sep) + [sep] + parts[|parts| - 1]
    decreases |parts|
  {
    if |parts| > 2 {
      JoinLast(parts[1..], sep);
      assert parts[1..][..|parts| - 2] == parts[..|parts| - 1][1..];
    }
  }

  datatype Location = Location(directory: string, filename: string)

  /** `getDirectoryAndFilename(path)`: the text before the last `/` and the text after it.
      The "No filename" error is unreachable, so the result is always a success. */
  function GetDirectoryAndFilename(path: string): (r: Result<Location, string>)
    ensures r.Success?
    ensures '/' !in r.value.filename
    ensures '/' !in path ==> r.value == Location("", path)
    ensures '/' in path ==> r.value.directory + "/" + r.value.filename == path
  {
    var parts := Split(path, '/');
    if |parts| == 0 then Failure("No filename")
    else
      var directory := Join(parts[..|parts| - 1], '/');
      var filename := parts[|parts| - 1];
      JoinSplit(path, '/');
      if |parts| >= 2 then
        JoinLast(parts, '/');
        Success(Location(directory, filename))
      else
        Success(Location(directory, filename))
  }

  /** A path has one split at its last `/`: the file name after it has no `/`. */
  lemma LocationUnique(d1: string, f1: string, d2: string, f2: string)
    requires '/' !in f1 && '/' !in f2
    requires d1 + "/" + f1 == d2 + "/" + f2
    ensures d1 == d2 && f1 == f2
  {
    var p := d1 + "/" + f1;
    var q := d2 + "/" + f2;
    assert p[|d1|] == '/' && q[|d2|] == '/';
    assert forall j :: |d1| < j < |p| ==> p[j] == f1[j - |d1| - 1];
    assert forall j :: |d2| < j < |q| ==> q[j] == f2[j - |d2| - 1];
    assert d1 == p[..|d1|] && d2 == p[..|d2|];
    assert f1 == p[|d1| + 1..] && f2 == p[|d2| + 1..];
  }

  /** Position of the last occurrence of `c` in `s`, searched from the end. */
  function LastIndexOf(s: string, c: char): (k: Option<nat>)
    ensures k.None? <==> c !in s
    ensures k.Some? ==> k.value < |s| && s[k.value] == c && c !in s[k.value + 1..]
  {
    if |s| == 0 then None
    else if s[|s| - 1] == c then Some(|s| - 1)
    else
      var k := LastIndexOf(s[..|s| - 1], c);
      if k.Some? then
        assert s[k.value + 1..] == s[..|s| - 1][k.value + 1..] + [s[|s| - 1]];
        k
      else k
  }

  /** The directory is exactly the text before the last `/` and the file name the text
      after it; with no `/` the directory is empty and the file name is the whole path. */
  lemma DirectoryIsBeforeLastSlash(path: string)
    ensures GetDirectoryAndFilename(path).value ==
      match LastIndexOf(path, '/')
      case None => Location("", path)
      case Some(k) => Location(path[..k], path[k + 1..])
  {
    var loc := GetDirectoryAndFilename(path).value;
    match LastIndexOf(path, '/')
    case None =>
    case Some(k) =>
      var d := |loc.directory|;
      assert path[d] == '/' && path[d + 1..] == loc.filename by {
        assert path == loc.directory + "/" + loc.filename;
      }
  }
}

=== FILE: http.dfy ===
/** src/http.ts: the outbound `request` helper and the statuses it accepts. */
module Http {
  import opened Wrappers

  /** What the upstream answered: Node's `statusCode` may be undefined. */
  datatype Reply = Reply(status: Option<int>, headers: map<string, string>)

  /** The outcome of the transport: an answer, or an `error` event on the request. */
  datatype Transport = Answered(reply: Reply) | TransportError

  datatype Rejection = BadStatus(status: Option<int>) | TransportFailed

  /** The promise returned by `request`: resolved with the reply, or rejected. */
  datatype Settled = Resolved(reply: Reply) | Rejected(why: Rejection)

  /** The statuses accepted without `ignoreError`: defined and within [100, 300). */
  predicate Acceptable(status: Option<int>) {
    status.Some? && 100 <= status.value < 300
  }

  function Request(t: Transport, ignoreError: bool): (r: Settled)
    ensures t.TransportError? ==> r == Rejected(TransportFailed)
    ensures t.Answered? && ignoreError ==> r == Resolved(t.reply)
    ensures t.Answered? && !ignoreError ==>
      (r.Resolved? <==> t.reply.status.Some? && 100 <= t.reply.status.value < 300)
    ensures r.Resolved? ==> t == Answered(r.reply)
  {
    match t
    case TransportError => Rejected(TransportFailed)
    case Answered(reply) =>
      if !ignoreError && (reply.status.None? || reply.status.value < 100 || reply.status.value >= 300) then
        Rejected(BadStatus(reply.status))
      else
        Resolved(reply)
  }

  /** Setting `ignoreError` only ever turns rejections into resolutions: whatever
      resolves without it resolves with it to the same reply, and a transport
      error rejects either way. */
  lemma IgnoreErrorOnlyWidens(t: Transport)
    ensures Request(t, false).Resolved? ==> Request(t, true) == Request(t, false)
    ensures Request(t, true).Rejected? <==> t.TransportError?
    ensures Request(t, false).Rejected? <==> (t.TransportError? || !Acceptable(t.reply.status))
  {
  }
}

=== FILE: proxy_repo.dfy ===
/** src/proxy_repo.ts: serving a proxied package from the cache or fetching it
    upstream, and passing any other proxied path through to the upstream server. */
module ProxyRepo {
  import opened Wrappers
  import Files
  import Http
  import R = Response

  /** What `maybeStat(localFilePath)` found. */
  datatype FileInfo = FileInfo(isFile: bool, size: nat)

  /** A call `streamFile(filename, res, headers)`: sending the cached file. */
  datatype LocalStream = LocalStream(filename: string, headers: R.Headers)

  /** Everything a call of `getProxiedPackage` does that the model tracks. */
  datatype Fetch = Fetch(
    resp: R.Response,                 // the response as this handler leaves it
    streamed: Option<LocalStream>,    // cache hit: the local file sent
    upstreamUrl: Option<string>,      // cache miss: the URL requested upstream
    notified: Option<string>,         // argument of newPackageAdded, when called
    escaped: bool)                    // an exception leaves the handler

  /** The inputs the filesystem, the network and the streams decide. */
  datatype World = World(
    joined: bool,                     // neither safeJoin(PROXIED_PACKAGES_DIR, path) nor
                                      // ensureDirExists(dirname(...)) threw
    stat: Option<FileInfo>,
    upstream: Http.Transport,
    teeOk: bool)                      // both pipelines of the tee completed

  function LocalHeaders(size: nat): R.Headers {
    map["content-type" := R.Text("application/octet-stream"),
        "content-length" := R.Size(size),
        "x-fetched-from" := R.Text("local")]
  }

  /** The upstream `content-length`, which Node leaves undefined when absent. */
  function ContentLength(reply: Http.Reply): R.HeaderValue {
    if "content-length" in reply.headers then R.Text(reply.headers["content-length"]) else R.Undefined
  }

  function UpstreamHeaders(baseUrl: string, reply: Http.Reply): (h: R.Headers)
    ensures R.Defined(h) <==> ContentLength(reply) != R.Undefined
  {
    var h := map["content-type" := R.Text("application/octet-stream"),
        "content-length" := ContentLength(reply),
        "x-fetched-from" := R.Text(baseUrl)];
    assert h["content-length"] == ContentLength(reply);
    h
  }

  /** JavaScript's `statusCode || 500`. */
  function StatusOr500(status: Option<int>): int {
    if status.None? || status.value == 0 then 500 else status.value
  }

  function UpstreamUrl(baseUrl: string, path: string): string {
    var loc := Files.GetDirectoryAndFilename(path).value;
    baseUrl + loc.directory + "/" + loc.filename
  }

  /** The package URL upstream is the base URL followed by the request path
      whenever the path has a `/`, as it does for every request under `/proxied/`. */
  lemma UpstreamUrlIsBasePlusPath(baseUrl: string, path: string)
    requires '/' in path
    ensures UpstreamUrl(baseUrl, path) == baseUrl + path
  {
  }

  /** A path without `/` (the router passes one for `/proxiedfoo.apk`) has an
      empty directory, so the URL gets a `/` the path does not have. */
  lemma UpstreamUrlWithoutSlash(baseUrl: string, path: string)
    requires '/' !in path
    ensures UpstreamUrl(baseUrl, path) == baseUrl + "/" + path
  {
  }

  predicate Hit(w: World) {
    w.stat.Some? && w.stat.value.isFile
  }

  /** The handler exactly as written. When the tee fails after the `200` head was
      written, the `writeHead(500)` in the inner `catch` throws because a head was
      already stored; the outer `catch` then throws again for the same reason, so
      the exception leaves the handler and `newPackageAdded` is never reached. */
  function GetProxiedPackageAsWritten(baseUrl: string, path: string, w: World): (f: Fetch)
    ensures f.notified.Some? ==> f.notified.value == Files.GetDirectoryAndFilename(path).value.directory
    ensures w.joined && !Hit(w) && Http.Request(w.upstream, false).Resolved?
      && w.upstream.reply.status == Some(200) && ContentLength(w.upstream.reply) != R.Undefined && !w.teeOk
      ==> f.notified.None? && f.escaped
  {
    var loc := Files.GetDirectoryAndFilename(path).value;
    if !w.joined then Fetch(R.Fresh, None, None, None, true)
    else if Hit(w) then
      Fetch(R.Fresh, Some(LocalStream(loc.filename, LocalHeaders(w.stat.value.size))), None, None, false)
    else
      var url := UpstreamUrl(baseUrl, path);
      match Http.Request(w.upstream, false)
      case Rejected(_) => Fetch(R.Reply(R.Fresh, 500, ""), None, Some(url), None, false)
      case Resolved(reply) =>
        if reply.status == Some(200) then
          match R.WriteHead(R.Fresh, 200, "", UpstreamHeaders(baseUrl, reply))
          case Failure(_) => Fetch(R.Reply(R.Fresh, 500, ""), None, Some(url), None, false)
          case Success(started) =>
            if w.teeOk then Fetch(R.End(started), None, Some(url), Some(loc.directory), false)
            else Fetch(started, None, Some(url), None, true)
        else
          Fetch(R.Reply(R.Fresh, StatusOr500(reply.status), ""), None, Some(url), None, false)
  }

  /** The handler as evidently intended: once the upstream answered `200` and the
      head went out, a failed tee ends the response without rewriting its head
      and the new package is still announced. */
  function GetProxiedPackage(baseUrl: string, path: string, w: World): (f: Fetch)
    // a cache hit streams the file with its size and origin "local", and asks nothing upstream
    ensures w.joined && Hit(w) ==>
      && f.streamed == Some(LocalStream(Files.GetDirectoryAndFilename(path).value.filename, LocalHeaders(w.stat.value.size)))
      && f.upstreamUrl.None? && f.notified.None?
    // a miss asks upstream for the base URL followed by directory, '/', file name
    ensures w.joined && !Hit(w) ==> f.upstreamUrl == Some(UpstreamUrl(baseUrl, path)) && f.streamed.None?
    // the new package is announced exactly when the upstream 200 could be relayed
    ensures f.notified.Some? <==>
      w.joined && !Hit(w) && Http.Request(w.upstream, false).Resolved?
      && w.upstream.reply.status == Some(200) && ContentLength(w.upstream.reply) != R.Undefined
    ensures f.notified.Some? ==> f.notified.value == Files.GetDirectoryAndFilename(path).value.directory
    ensures f.notified.Some? ==>
      f.resp == R.Response(Some(R.Head(200, "", UpstreamHeaders(baseUrl, w.upstream.reply))), true)
    // an upstream 200 without a length: `writeHead` refuses the undefined header
    // value, so the outer `catch` answers 500 and nothing is relayed or cached
    ensures w.joined && !Hit(w) && Http.Request(w.upstream, false).Resolved?
      && w.upstream.reply.status == Some(200) && ContentLength(w.upstream.reply) == R.Undefined
      ==> f.resp == R.Response(Some(R.Head(500, "", map[])), true) && f.notified.None? && !f.escaped
    // an accepted status other than 200 is echoed
    ensures w.joined && !Hit(w) && Http.Request(w.upstream, false).Resolved? && w.upstream.reply.status != Some(200)
      ==> f.resp == R.Response(Some(R.Head(w.upstream.reply.status.value, "", map[])), true) && f.notified.None?
    // a rejected request, including any status of 300 or more, gives 500
    ensures w.joined && !Hit(w) && Http.Request(w.upstream, false).Rejected?
      ==> f.resp == R.Response(Some(R.Head(500, "", map[])), true)
    ensures f.escaped <==> !w.joined
  {
    var loc := Files.GetDirectoryAndFilename(path).value;
    if !w.joined then Fetch(R.Fresh, None, None, None, true)
    else if Hit(w) then
      Fetch(R.Fresh, Some(LocalStream(loc.filename, LocalHeaders(w.stat.value.size))), None, None, false)
    else
      var url := UpstreamUrl(baseUrl, path);
      match Http.Request(w.upstream, false)
      case Rejected(_) => Fetch(R.Reply(R.Fresh, 500, ""), None, Some(url), None, false)
      case Resolved(reply) =>
        if reply.status == Some(200) then
          match R.WriteHead(R.Fresh, 200, "", UpstreamHeaders(baseUrl, reply))
          case Failure(_) => Fetch(R.Reply(R.Fresh, 500, ""), None, Some(url), None, false)
          case Success(started) => Fetch(R.End(started), None, Some(url), Some(loc.directory), false)
        else
          Fetch(R.Reply(R.Fresh, StatusOr500(reply.status), ""), None, Some(url), None, false)
  }

  /** The two versions agree everywhere except on a failed tee. */
  lemma AsWrittenDiffersOnlyOnTeeFailure(baseUrl: string, path: string, w: World)
    requires w.teeOk
    ensures GetProxiedPackageAsWritten(baseUrl, path, w) == GetProxiedPackage(baseUrl, path, w)
  {
  }

  /** The input on which the handler as written loses the notification: the
      package is not cached, the upstream answers 200 with a length, and the tee
      fails (the client goes away mid-stream, say). */
  lemma TeeFailureSkipsNotification(baseUrl: string, path: string, size: string)
    ensures
      var w := World(true, None, Http.Answered(Http.Reply(Some(200), map["content-length" := size])), false);
      && GetProxiedPackageAsWritten(baseUrl, path, w).notified == None
      && GetProxiedPackageAsWritten(baseUrl, path, w).escaped
      && GetProxiedPackage(baseUrl, path, w).notified == Some(Files.GetDirectoryAndFilename(path).value.directory)
  {
  }

  /** Cache idempotence: once the file is cached, the same request is served
      locally, with no upstream request and no notification. */
  lemma SecondFetchIsLocal(baseUrl: string, path: string, w: World, size: nat)
    requires w.joined && w.stat == Some(FileInfo(true, size))
    ensures GetProxiedPackage(baseUrl, path, w).upstreamUrl.None?
    ensures GetProxiedPackage(baseUrl, path, w).streamed.value.headers["x-fetched-from"] == R.Text("local")
    ensures GetProxiedPackage(baseUrl, path, w).streamed.value.headers["content-length"] == R.Size(size)
  {
  }

  /** `proxyUrl(path)`: the request ignores errors, so any answered status is
      written through with the upstream headers; a status Node refuses to write,
      and any transport error, gives 500. */
  function ProxyUrl(baseUrl: string, path: string, upstream: Http.Transport): (r: (string, R.Response))
    ensures r.0 == baseUrl + path
    ensures r.1.ended
    ensures upstream.TransportError? ==> r.1.head == Some(R.Head(500, "", map[]))
    ensures upstream.Answered? && 100 <= StatusOr500(upstream.reply.status) <= 999 ==>
      r.1.head == Some(R.Head(StatusOr500(upstream.reply.status), "", PassedHeaders(upstream.reply)))
    ensures R.StatusOf(r.1) == 500 || (upstream.Answered? && upstream.reply.status == Some(R.StatusOf(r.1)))
  {
    var url := baseUrl + path;
    match Http.Request(upstream, true)
    case Rejected(_) => (url, R.Reply(R.Fresh, 500, ""))
    case Resolved(reply) =>
      // whether piping the body fails or not, the response ends
      match R.WriteHead(R.Fresh, StatusOr500(reply.status), "", PassedHeaders(reply))
      case Success(started) => (url, R.End(started))
      case Failure(_) => (url, R.Reply(R.Fresh, 500, ""))
  }

  function PassedHeaders(reply: Http.Reply): (h: R.Headers)
    ensures R.Defined(h)
  {
    map name | name in reply.headers :: R.Text(reply.headers[name])
  }
}

=== FILE: response.dfy ===
/** The rules of Node's `ServerResponse` that the request handlers depend on:
    a head can be written once, `writeHead` sends no head when it refuses the
    status code or a header value, and `end()` without a head sends an implicit
    `200`. The reason phrase is not modelled beyond the one given. */
module Response {
  import opened Wrappers

  datatype HeaderValue = Text(text: string) | Size(bytes: nat) | Undefined

  type Headers = map<string, HeaderValue>

  datatype Head = Head(status: int, reason: string, headers: Headers)

  datatype Response = Response(head: Option<Head>, ended: bool)

  /** What `writeHead` throws. */
  datatype WriteError = HeadersSent | InvalidStatus(status: int) | InvalidHeaderValue

  const Fresh := Response(None, false)

  /** The head `end()` sends when none was written: `statusCode` defaults to 200. */
  const ImplicitHead := Head(200, "", map[])

  predicate HeadersSentOn(r: Response) {
    r.head.Some?
  }

  predicate Defined(headers: Headers) {
    forall name :: name in headers ==> headers[name] != Undefined
  }

  function WriteHead(r: Response, status: int, reason: string, headers: Headers): (res: Result<Response, WriteError>)
    ensures HeadersSentOn(r) ==> res == Failure(HeadersSent)
    ensures res.Success? <==> !HeadersSentOn(r) && 100 <= status <= 999 && Defined(headers)
    ensures res.Success? ==> res.value == Response(Some(Head(status, reason, headers)), r.ended)
  {
    if r.head.Some? then Failure(HeadersSent)
    else if status < 100 || status > 999 then Failure(InvalidStatus(status))
    else if !Defined(headers) then Failure(InvalidHeaderValue)
    else Success(Response(Some(Head(status, reason, headers)), r.ended))
  }

  function End(r: Response): (r': Response)
    ensures r'.ended
    ensures HeadersSentOn(r') && (HeadersSentOn(r) ==> r'.head == r.head)
    ensures !HeadersSentOn(r) ==> r'.head == Some(ImplicitHead)
  {
    if r.head.Some? then r.(ended := true) else Response(Some(ImplicitHead), true)
  }

  /** `writeHead(status, reason)` followed by `end()` on a response that has no
      head yet, for a status that passes validation. */
  function Reply(r: Response, status: int, reason: string): (r': Response)
    requires !HeadersSentOn(r) && 100 <= status <= 999
    ensures r' == Response(Some(Head(status, reason, map[])), true)
  {
    End(WriteHead(r, status, reason, map[]).value)
  }

  /** The status a client sees once the response has been ended. */
  function StatusOf(r: Response): int {
    if r.head.Some? then r.head.value.status else 200
  }
}

=== FILE: server.dfy ===
/** src/server.ts: the HTTP Basic gate (section 2 of RFC 7617) and the routing
    decision of `handle`, as a classifier from a request to the handler it reaches. */
module Server {
  import opened Wrappers
  import opened Strings
  import R = Response
  import Http
  import ProxyRepo

  const APKINDEX: string := "/APKINDEX.tar.gz"
  const PROXIED: string := "/proxied"
  const LOCAL: string := "/local"

  /** `logins` is `null` when authentication is disabled. */
  datatype Config = Config(logins: Option<set<string>>, pubKeyPath: string)

  /** The parts of an `IncomingMessage` that `handle` reads; `pathname` is the one
      of the parsed URL. */
  datatype Incoming = Incoming(verb: Option<string>, url: Option<string>, pathname: string, authorization: Option<string>)

  // ---------------------------------------------------------------------------
  // `authorizationHeader.split(/\s+/)`
  // ---------------------------------------------------------------------------

  /** Length of the longest prefix without white space. */
  function FieldLength(s: string): (n: nat)
    ensures n <= |s| && NoSpace(s[..n])
    ensures n == |s| || IsSpace(s[n])
  {
    if |s| == 0 || IsSpace(s[0]) then 0
    else
      var n := 1 + FieldLength(s[1..]);
      assert s[..n] == [s[0]] + s[1..][..n - 1];
      n
  }

  /** Drops the leading white space. */
  function SkipSpaces(s: string): (r: string)
    ensures |r| <= |s| && r == s[|s| - |r|..]
    ensures r == "" || !IsSpace(r[0])
  {
    if |s| > 0 && IsSpace(s[0]) then SkipSpaces(s[1..]) else s
  }

  /** The fields between runs of white space. Leading or trailing white space
      yields an empty first or last field, and the empty string yields `[""]`. */
  function SplitSpaces(s: string): (fields: seq<string>)
    ensures |fields| >= 1
    ensures forall i :: 0 <= i < |fields| ==> NoSpace(fields[i])
    decreases |s|
  {
    var n := FieldLength(s);
    if n == |s| then
      assert s[..n] == s;
      [s]
    else
      var head := s[..n];
      var rest := SplitSpaces(SkipSpaces(s[n + 1..]));
      assert forall i :: 0 < i <= |rest| ==> ([head] + rest)[i] == rest[i - 1];
      [head] + rest
  }

  predicate AllSpaces(s: string) {
    forall i {:trigger IsSpace(s[i])} :: 0 <= i < |s| ==> IsSpace(s[i])
  }

  lemma {:induction false} FieldLengthOf(a: string, b: string)
    requires NoSpace(a)
    requires b == "" || IsSpace(b[0])
    ensures FieldLength(a + b) == |a|
    decreases |a|
  {
    if |a| > 0 {
      assert (a + b)[1..] == a[1..] + b;
      FieldLengthOf(a[1..], b);
    }
  }

  lemma {:induction false} SkipSpacesPrefix(sep: string, b: string)
    requires AllSpaces(sep)
    ensures SkipSpaces(sep + b) == SkipSpaces(b)
    decreases |sep|
  {
    if |sep| > 0 {
      assert (sep + b)[1..] == sep[1..] + b;
      SkipSpacesPrefix(sep[1..], b);
    } else {
      assert sep + b == b;
    }
  }

  /** A space-free field followed by white space splits off as the first field. */
  lemma SplitFirstField(a: string, sep: string, b: string)
    requires NoSpace(a) && |sep| >= 1 && AllSpaces(sep)
    ensures SplitSpaces(a + sep + b) == [a] + SplitSpaces(SkipSpaces(b))
  {
    var s := a + sep + b;
    FieldLengthOf(a, sep + b);
    assert s == a + (sep + b);
    var n := FieldLength(s);
    assert n == |a| && n < |s|;
    assert s[..n] == a;
    assert s[n + 1..] == sep[1..] + b;
    SkipSpacesPrefix(sep[1..], b);
    assert SplitSpaces(s) == [s[..n]] + SplitSpaces(SkipSpaces(s[n + 1..]));
  }

  lemma SplitSingleField(a: string)
    requires NoSpace(a)
    ensures SplitSpaces(a) == [a]
  {
    FieldLengthOf(a, "");
    assert a + "" == a;
  }

  /** `fields.join(" ")`. */
  function JoinSpaced(fields: seq<string>): string
    decreases |fields|
  {
    if |fields| == 0 then ""
    else if |fields| == 1 then fields[0]
    else fields[0] + " " + JoinSpaced(fields[1..])
  }

  /** Fields a spaced join can carry: none holds white space, and all but the
      first are non-empty. */
  predicate SpacedFields(fields: seq<string>) {
    && |fields| >= 1
    && (forall i :: 0 <= i < |fields| ==> NoSpace(fields[i]))
    && (forall i :: 1 <= i < |fields| ==> fields[i] != "")
  }

  lemma SpacedFieldsTail(fields: seq<string>)
    requires SpacedFields(fields) && |fields| >= 2
    ensures SpacedFields(fields[1..]) && fields[1..][0] != ""
  {
    var tail := fields[1..];
    forall i | 0 <= i < |tail| ensures NoSpace(tail[i]) && (i >= 1 ==> tail[i] != "") {
      assert tail[i] == fields[i + 1];
    }
  }

  /** Splitting undoes joining with single spaces. */
  lemma {:induction false} SplitJoinSpaced(fields: seq<string>)
    requires SpacedFields(fields)
    ensures SplitSpaces(JoinSpaced(fields)) == fields
    decreases |fields|
  {
    if |fields| == 1 {
      SplitSingleField(fields[0]);
    } else {
      var tail := fields[1..];
      var rest := JoinSpaced(tail);
      assert JoinSpaced(fields) == fields[0] + " " + rest;
      SpacedFieldsTail(fields);
      SplitJoinSpaced(tail);
      JoinSpacedStart(tail);
      assert NoSpace(tail[0]) && !IsSpace(tail[0][0]);
      SplitAfterOneSpace(fields[0], rest);
      assert [fields[0]] + tail == fields;
    }
  }

  /** A space-free field, one space, and a string not starting with white space. */
  lemma SplitAfterOneSpace(a: string, rest: string)
    requires NoSpace(a)
    requires rest == "" || !IsSpace(rest[0])
    ensures SplitSpaces(a + " " + rest) == [a] + SplitSpaces(rest)
  {
    assert IsSpace(" "[0]);
    SplitFirstField(a, " ", rest);
    SkipNothing(rest);
  }

  lemma SkipNothing(s: string)
    requires s == "" || !IsSpace(s[0])
    ensures SkipSpaces(s) == s
  {
  }

  /** A spaced join starts with the first character of its first field. */
  lemma JoinSpacedStart(fields: seq<string>)
    requires |fields| >= 1 && fields[0] != ""
    ensures |JoinSpaced(fields)| > 0 && JoinSpaced(fields)[0] == fields[0][0]
  {
  }

  // ---------------------------------------------------------------------------
  // `isValidLogin`
  // ---------------------------------------------------------------------------

  const NO_CREDENTIALS: string := "Provide authn details"
  const WRONG_TYPE: string := "Wrong authn type"
  const WRONG_COMBO: string := "Wrong user:password combo"

  /** `Valid`, or the reason of the one `401` head written. */
  datatype LoginCheck = Valid | Invalid(reason: string)

  /** `decode` is `Buffer.from(token, 'base64').toString()`. */
  function IsValidLogin(logins: Option<set<string>>, decode: string -> string, header: Option<string>): (r: LoginCheck)
    ensures logins.None? ==> r == Valid
    ensures logins.Some? && header.None? ==> r == Invalid(NO_CREDENTIALS)
    ensures r.Invalid? ==> r.reason in {NO_CREDENTIALS, WRONG_TYPE, WRONG_COMBO}
    ensures logins.Some? && header.Some? ==>
      (r == Invalid(WRONG_TYPE) <==>
        |SplitSpaces(header.value)| < 2 || ToLower(SplitSpaces(header.value)[0]) != "basic")
    ensures r == Valid && logins.Some? ==>
      header.Some? && |SplitSpaces(header.value)| >= 2 && decode(SplitSpaces(header.value)[1]) in logins.value
  {
    match logins
    case None => Valid
    case Some(allowed) =>
      match header
      case None => Invalid(NO_CREDENTIALS)
      case Some(h) =>
        var fields := SplitSpaces(h);
        if |fields| < 2 || ToLower(fields[0]) != "basic" then Invalid(WRONG_TYPE)
        else if decode(fields[1]) in allowed then Valid
        else Invalid(WRONG_COMBO)
  }

  /** `Basic <token>`, with any white space after the scheme and anything after
      the token once white space separates it: the result depends only on
      whether the decoded token is an allowed `user:password`. */
  lemma BasicCredentials(logins: set<string>, decode: string -> string,
                         scheme: string, sep: string, token: string, rest: string)
    requires ToLower(scheme) == "basic" && NoSpace(scheme)
    requires |sep| >= 1 && AllSpaces(sep)
    requires NoSpace(token) && (token != "" || rest == "")
    requires rest == "" || IsSpace(rest[0])
    ensures IsValidLogin(Some(logins), decode, Some(scheme + sep + (token + rest))) ==
      if decode(token) in logins then Valid else Invalid(WRONG_COMBO)
  {
    BasicFields(scheme, sep, token, rest);
  }

  /** The first two fields of `scheme sep token rest` are the scheme and the token. */
  lemma BasicFields(scheme: string, sep: string, token: string, rest: string)
    requires NoSpace(scheme) && |sep| >= 1 && AllSpaces(sep)
    requires NoSpace(token) && (token != "" || rest == "")
    requires rest == "" || IsSpace(rest[0])
    ensures |SplitSpaces(scheme + sep + (token + rest))| >= 2
    ensures SplitSpaces(scheme + sep + (token + rest))[0] == scheme
    ensures SplitSpaces(scheme + sep + (token + rest))[1] == token
  {
    var tail := token + rest;
    SplitFirstField(scheme, sep, tail);
    SecondField(token, rest);
    var fields := SplitSpaces(tail);
    assert ([scheme] + fields)[1] == fields[0] == token;
  }

  /** After the separating white space, the next field is the token. */
  lemma SecondField(token: string, rest: string)
    requires NoSpace(token) && (token != "" || rest == "")
    requires rest == "" || IsSpace(rest[0])
    ensures SkipSpaces(token + rest) == token + rest
    ensures SplitSpaces(token + rest)[0] == token
  {
    var s := token + rest;
    FieldLengthOf(token, rest);
    if |token| > 0 {
      assert s[0] == token[0];
    }
    SkipNothing(s);
    assert s[..|token|] == token;
  }

  /** A header with a single field has no token and is refused as the wrong type. */
  lemma SchemeWithoutToken(logins: set<string>, decode: string -> string, field: string)
    requires NoSpace(field)
    ensures IsValidLogin(Some(logins), decode, Some(field)) == Invalid(WRONG_TYPE)
  {
    SplitSingleField(field);
  }

  // ---------------------------------------------------------------------------
  // Routing in `handle`
  // ---------------------------------------------------------------------------

  datatype Route =
    | MethodNotAllowed
    | Unauthorized(reason: string)
    | Home
    | PublicKey
    | ProxiedPackage(path: string)
    | ProxiedIndex(dir: string)
    | Proxied(path: string)
    | LocalPackage(path: string)
    | LocalIndex(dir: string)
    | WrongFiletype
    | Unrouted

  predicate MethodAllowed(req: Incoming) {
    req.verb.Some? && req.url.Some? && ToUpper(req.verb.value) == "GET"
  }

  predicate Admitted(cfg: Config, decode: string -> string, req: Incoming) {
    MethodAllowed(req) && IsValidLogin(cfg.logins, decode, req.authorization) == Valid
  }

  /** The route of a path under `/proxied`, once the prefix is stripped: a
      package name is tested before the index name. */
  function ProxiedRoute(path: string): (route: Route)
    ensures route.ProxiedPackage? || route.ProxiedIndex? || route.Proxied?
    ensures route.ProxiedPackage? <==> EndsWith(path, ".apk")
  {
    if EndsWith(path, ".apk") then ProxiedPackage(path)
    else if EndsWith(path, APKINDEX) then ProxiedIndex(SliceDropLast(path, |APKINDEX|))
    else Proxied(path)
  }

  function Classify(cfg: Config, decode: string -> string, req: Incoming): (route: Route)
    ensures route == MethodNotAllowed <==> !MethodAllowed(req)
    ensures route.Unauthorized? <==> MethodAllowed(req) && IsValidLogin(cfg.logins, decode, req.authorization).Invalid?
    ensures route.Unauthorized? ==> route.reason == IsValidLogin(cfg.logins, decode, req.authorization).reason
    ensures route == Home <==> Admitted(cfg, decode, req) && (req.pathname == "/" || req.pathname == "")
    // the public key is tested after the root and before `/proxied` and `/local`
    ensures route == PublicKey <==>
      Admitted(cfg, decode, req) && req.pathname != "/" && req.pathname != "" && req.pathname == cfg.pubKeyPath
    ensures route == Unrouted <==>
      && Admitted(cfg, decode, req)
      && req.pathname != "/" && req.pathname != "" && req.pathname != cfg.pubKeyPath
      && !StartsWith(req.pathname, PROXIED) && !StartsWith(req.pathname, LOCAL)
  {
    if !MethodAllowed(req) then MethodNotAllowed
    else match IsValidLogin(cfg.logins, decode, req.authorization)
      case Invalid(reason) => Unauthorized(reason)
      case Valid =>
        var p := req.pathname;
        if p == "/" || p == "" then Home
        else if p == cfg.pubKeyPath then PublicKey
        else if StartsWith(p, PROXIED) then ProxiedRoute(SliceFrom(p, |PROXIED|))
        else if StartsWith(p, LOCAL) then
          var path := SliceFrom(p, |LOCAL|);
          if EndsWith(p, ".apk") then LocalPackage(path)
          else if EndsWith(p, APKINDEX) then LocalIndex(SliceDropLast(path, |APKINDEX|))
          else WrongFiletype
        else Unrouted
  }

  /** Neither the root nor the public key, whatever the key's path is. */
  predicate Ordinary(cfg: Config, pathname: string) {
    pathname != "/" && pathname != "" && pathname != cfg.pubKeyPath
  }

  /** An ordinary admitted path under `/proxied` is routed on what follows the prefix. */
  lemma ClassifyProxied(cfg: Config, decode: string -> string, req: Incoming, path: string)
    requires Admitted(cfg, decode, req) && Ordinary(cfg, req.pathname)
    requires req.pathname == PROXIED + path
    ensures Classify(cfg, decode, req) == ProxiedRoute(path)
  {
    assert req.pathname[|PROXIED|..] == path;
  }

  /** Under `/proxied` the prefix is stripped and a package name wins over the
      index name; the round trip recovers the package path. */
  lemma ProxiedPackageRoute(cfg: Config, decode: string -> string, req: Incoming, path: string)
    requires Admitted(cfg, decode, req) && Ordinary(cfg, req.pathname)
    requires req.pathname == PROXIED + path && EndsWith(path, ".apk")
    ensures Classify(cfg, decode, req) == ProxiedPackage(path)
  {
    ClassifyProxied(cfg, decode, req, path);
  }

  /** An index request under `/proxied` passes its directory, the path minus the
      index file name. */
  lemma ProxiedIndexRoute(cfg: Config, decode: string -> string, req: Incoming, dir: string)
    requires Admitted(cfg, decode, req) && Ordinary(cfg, req.pathname)
    requires req.pathname == PROXIED + (dir + APKINDEX)
    ensures Classify(cfg, decode, req) == ProxiedIndex(dir)
  {
    var path := dir + APKINDEX;
    ClassifyProxied(cfg, decode, req, path);
    ProxiedIndexOf(dir);
  }

  /** `/proxied` is not required to be followed by `/`: `/proxiedfoo.apk` reaches
      the package handler with `foo.apk`, which is fetched from the same URL as
      `/proxied/foo.apk`. */
  lemma ProxiedPackageWithoutSlash(cfg: Config, decode: string -> string, req: Incoming,
                                   file: string, baseUrl: string)
    requires Admitted(cfg, decode, req) && Ordinary(cfg, req.pathname)
    requires req.pathname == PROXIED + file && '/' !in file && EndsWith(file, ".apk")
    ensures Classify(cfg, decode, req) == ProxiedPackage(file)
    ensures ProxyRepo.UpstreamUrl(baseUrl, file) == ProxyRepo.UpstreamUrl(baseUrl, "/" + file)
  {
    ProxiedPackageRoute(cfg, decode, req, file);
    ProxyRepo.UpstreamUrlWithoutSlash(baseUrl, file);
    assert ("/" + file)[0] == '/';
    ProxyRepo.UpstreamUrlIsBasePlusPath(baseUrl, "/" + file);
    assert baseUrl + "/" + file == baseUrl + ("/" + file);
  }

  /** A path ending in the index name is not a package, and dropping the index
      name gives back its directory. */
  lemma ProxiedIndexOf(dir: string)
    ensures ProxiedRoute(dir + APKINDEX) == ProxiedIndex(dir)
  {
    var path := dir + APKINDEX;
    assert path[|path| - 1] == 'z';
    assert !EndsWith(path, ".apk");
    assert path[|path| - |APKINDEX|..] == APKINDEX;
    assert path[..|path| - |APKINDEX|] == dir;
  }

  /** Any other path under `/proxied` is passed through upstream. */
  lemma ProxiedOtherRoute(cfg: Config, decode: string -> string, req: Incoming, path: string)
    requires Admitted(cfg, decode, req) && Ordinary(cfg, req.pathname)
    requires req.pathname == PROXIED + path && !EndsWith(path, ".apk") && !EndsWith(path, APKINDEX)
    ensures Classify(cfg, decode, req) == Proxied(path)
  {
    ClassifyProxied(cfg, decode, req, path);
  }

  /** `/local` tests the suffixes on the whole pathname rather than on the stripped
      path; for these two suffixes the answer is the same. */
  lemma LocalSuffixesAgree(path: string)
    ensures EndsWith(LOCAL + path, ".apk") <==> EndsWith(path, ".apk")
    ensures EndsWith(LOCAL + path, APKINDEX) <==> EndsWith(path, APKINDEX)
  {
    LocalPackageSuffix(path);
    LocalIndexSuffix(path);
  }

  lemma SuffixOfConcat(x: string, y: string, n: nat)
    requires n <= |y|
    ensures (x + y)[|x + y| - n..] == y[|y| - n..]
  {
  }

  lemma LocalPackageSuffix(path: string)
    ensures EndsWith(LOCAL + path, ".apk") <==> EndsWith(path, ".apk")
  {
    var p := LOCAL + path;
    if |path| >= 4 {
      SuffixOfConcat(LOCAL, path, 4);
    } else {
      // the '.' would have to fall inside "/local"
      assert p[|p| - 4] == LOCAL[|path| + 2];
      assert LOCAL[|path| + 2] != '.';
    }
  }

  lemma LocalIndexSuffix(path: string)
    ensures EndsWith(LOCAL + path, APKINDEX) <==> EndsWith(path, APKINDEX)
  {
    var p := LOCAL + path;
    if |path| >= |APKINDEX| {
      SuffixOfConcat(LOCAL, path, |APKINDEX|);
    } else if |path| == 10 {
      // the "/A" would have to be the "/l" of "/local"
      assert p[1] == 'l';
      assert APKINDEX[1] == 'A';
    } else if |path| > 10 {
      // the '/' would have to fall inside "local"
      assert p[|p| - 16] == LOCAL[|path| - 10];
      assert LOCAL[|path| - 10] != '/';
    }
  }

  /** Under `/local` a package goes to the package handler, an index request to
      the index handler, and anything else is refused with 404. */
  lemma LocalRoutes(cfg: Config, decode: string -> string, req: Incoming, path: string)
    requires Admitted(cfg, decode, req) && Ordinary(cfg, req.pathname)
    requires req.pathname == LOCAL + path && !StartsWith(req.pathname, PROXIED)
    ensures EndsWith(path, ".apk") ==> Classify(cfg, decode, req) == LocalPackage(path)
    ensures !EndsWith(path, ".apk") && EndsWith(path, APKINDEX) ==>
      Classify(cfg, decode, req) == LocalIndex(path[..|path| - |APKINDEX|])
    ensures !EndsWith(path, ".apk") && !EndsWith(path, APKINDEX) ==> Classify(cfg, decode, req) == WrongFiletype
  {
    LocalSuffixesAgree(path);
    assert req.pathname[|LOCAL|..] == path;
  }

  // ---------------------------------------------------------------------------
  // What `handle` writes itself, and its `catch` and `finally`
  // ---------------------------------------------------------------------------

  /** The routes whose response a handler of another file writes. */
  predicate Delegated(route: Route) {
    || route == PublicKey || route.ProxiedPackage? || route.ProxiedIndex?
    || route.Proxied? || route.LocalPackage? || route.LocalIndex?
  }

  /** The response as `handle` leaves it before `finally`, for the routes it
      answers itself; it is untouched for the delegated routes, whose handler
      writes it, and for `Unrouted`. */
  function OwnResponse(route: Route): (r: R.Response)
    ensures route == MethodNotAllowed ==> r.head == Some(R.Head(405, "Method not allowed", map[]))
    ensures route.Unauthorized? ==> r.head == Some(R.Head(401, route.reason, map[]))
    ensures route == Home ==> r.head == Some(R.Head(200, "OK", map["content-type" := R.Text("text/html")])) && r.ended
    ensures route == WrongFiletype ==> r == R.Response(Some(R.Head(404, "Wrong filetype", map[])), true)
    ensures Delegated(route) || route == Unrouted ==> r == R.Fresh
  {
    match route
    case MethodNotAllowed => R.WriteHead(R.Fresh, 405, "Method not allowed", map[]).value
    case Unauthorized(reason) => R.WriteHead(R.Fresh, 401, reason, map[]).value
    case Home => R.End(R.WriteHead(R.Fresh, 200, "OK", map["content-type" := R.Text("text/html")]).value)
    case WrongFiletype => R.Reply(R.Fresh, 404, "Wrong filetype")
    case _ => R.Fresh
  }

  /** The `catch` (given the string form of what was thrown) and the `finally` of
      `handle`: a 500 only if no head was sent yet, then `end()` always. */
  function Settle(r: R.Response, thrown: Option<string>): (r': R.Response)
    ensures r'.ended
    ensures R.HeadersSentOn(r) ==> r'.head == r.head
    ensures thrown.Some? && !R.HeadersSentOn(r) ==> r'.head == Some(R.Head(500, thrown.value, map[]))
    ensures thrown.None? && !R.HeadersSentOn(r) ==> r'.head == Some(R.ImplicitHead)
  {
    if thrown.Some? && !R.HeadersSentOn(r) then R.Reply(r, 500, thrown.value) else R.End(r)
  }

  /** `handle`, given the outcome of the handler a delegated route reaches: the
      response as that handler leaves it in `delegate`, and the string form of
      what it threw, if anything, in `thrown` (both are ignored for the routes `handle`
      answers itself and for `Unrouted`, which reaches no handler). The client
      sees exactly one head: the own route's, the delegate's, the `500` of the
      `catch`, or the implicit `200` of the `finally`. */
  function Handle(cfg: Config, decode: string -> string, req: Incoming,
                  delegate: R.Response, thrown: Option<string>): (out: (Route, R.Response))
    ensures out.0 == Classify(cfg, decode, req) && out.1.ended
    ensures out.0 == MethodNotAllowed ==> R.StatusOf(out.1) == 405
    ensures out.0.Unauthorized? ==> R.StatusOf(out.1) == 401
    ensures out.0 == Home ==> out.1.head == Some(R.Head(200, "OK", map["content-type" := R.Text("text/html")]))
    ensures out.0 == Unrouted ==> out.1.head == Some(R.ImplicitHead)
    ensures out.0 == WrongFiletype ==> R.StatusOf(out.1) == 404
    // a delegated route keeps the head its handler wrote, even if it then threw
    ensures Delegated(out.0) && R.HeadersSentOn(delegate) ==>
      out.1.head == delegate.head
    // a handler that threw before writing a head gets the `500` of the `catch`
    ensures Delegated(out.0) && !R.HeadersSentOn(delegate) && thrown.Some? ==>
      out.1.head == Some(R.Head(500, thrown.value, map[]))
    ensures Delegated(out.0) && !R.HeadersSentOn(delegate) && thrown.None? ==>
      out.1.head == Some(R.ImplicitHead)
  {
    var route := Classify(cfg, decode, req);
    if Delegated(route) then (route, Settle(delegate, thrown))
    else (route, Settle(OwnResponse(route), None))
  }

  /** The string form of what was thrown (`error?.toString()`), as the `catch`
      writes it, when a handler escapes. */
  function Thrown(escaped: bool, message: string): Option<string> {
    if escaped then Some(message) else None
  }

  /** A package request under `/proxied`, answered by the package handler (as
      evidently intended): the client sees the upstream `200` head exactly when
      the package is announced; a `500` when the upstream request is rejected,
      when the path cannot be joined, or when the upstream `200` has no length;
      and the upstream's own status otherwise. */
  lemma HandleProxiedPackage(cfg: Config, decode: string -> string, req: Incoming, path: string,
                             baseUrl: string, w: ProxyRepo.World, message: string)
    requires Classify(cfg, decode, req) == ProxiedPackage(path)
    requires !ProxyRepo.Hit(w)
    ensures
      var f := ProxyRepo.GetProxiedPackage(baseUrl, path, w);
      var r := Handle(cfg, decode, req, f.resp, Thrown(f.escaped, message)).1;
      && r.ended
      && (f.notified.Some? ==> r.head == Some(R.Head(200, "", ProxyRepo.UpstreamHeaders(baseUrl, w.upstream.reply))))
      && (!w.joined ==> r.head == Some(R.Head(500, message, map[])))
      && (w.joined && Http.Request(w.upstream, false).Rejected? ==> R.StatusOf(r) == 500)
      && (w.joined && Http.Request(w.upstream, false).Resolved? && w.upstream.reply.status != Some(200)
          ==> R.StatusOf(r) == w.upstream.reply.status.value)
      // an upstream 200 without a length is refused by `writeHead`: 500, nothing announced
      && (w.joined && Http.Request(w.upstream, false).Resolved? && w.upstream.reply.status == Some(200)
          && ProxyRepo.ContentLength(w.upstream.reply) == R.Undefined
          ==> R.StatusOf(r) == 500 && f.notified.None?)
      // and the upstream head reaches the client only for an announced package
      && (w.upstream.Answered? ==>
          (r.head == Some(R.Head(200, "", ProxyRepo.UpstreamHeaders(baseUrl, w.upstream.reply))) <==> f.notified.Some?))
  {
  }

  /** Any other path under `/proxied` is answered by `proxyUrl`, whose response
      the `finally` leaves as it is. */
  lemma HandleProxied(cfg: Config, decode: string -> string, req: Incoming, path: string,
                      baseUrl: string, upstream: Http.Transport)
    requires Classify(cfg, decode, req) == Proxied(path)
    ensures Handle(cfg, decode, req, ProxyRepo.ProxyUrl(baseUrl, path, upstream).1, None).1
      == ProxyRepo.ProxyUrl(baseUrl, path, upstream).1
  {
  }

  /** With authentication disabled every allowed method reaches routing, and
      `isValidLogin` leaves the response untouched. */
  lemma AuthDisabledAdmitsAll(pubKeyPath: string, decode: string -> string, req: Incoming)
    requires MethodAllowed(req)
    ensures Admitted(Config(None, pubKeyPath), decode, req)
    ensures !Classify(Config(None, pubKeyPath), decode, req).Unauthorized?
  {
  }
}

=== FILE: strings.dfy ===
/** The few JavaScript string operations the proxy relies on, over `seq<char>`. */
module Strings {

  /** `s.startsWith(prefix)` */
  predicate StartsWith(s: string, prefix: string) {
    |prefix| <= |s| && s[..|prefix|] == prefix
  }

  /** `s.endsWith(suffix)` */
  predicate EndsWith(s: string, suffix: string) {
    |suffix| <= |s| && s[|s| - |suffix|..] == suffix
  }

  /** `s.slice(n)` for a non-negative `n`: past the end it yields the empty string. */
  function SliceFrom(s: string, n: nat): (r: string)
    ensures n <= |s| ==> s == s[..n] + r
    ensures n > |s| ==> r == ""
  {
    if n <= |s| then s[n..] else ""
  }

  /** `s.slice(0, -n)` for a positive `n`: drops the last `n` characters, or everything. */
  function SliceDropLast(s: string, n: nat): (r: string)
    requires n > 0
    ensures n <= |s| ==> r + s[|s| - n..] == s
    ensures n > |s| ==> r == ""
  {
    if n <= |s| then s[..|s| - n] else ""
  }

  function AsciiLower(c: char): char {
    if 'A' <= c <= 'Z' then (c as int + 32) as char else c
  }

  function AsciiUpper(c: char): char {
    if 'a' <= c <= 'z' then (c as int - 32) as char else c
  }

  /** `s.toLowerCase()`, restricted to the ASCII letters. */
  function ToLower(s: string): (r: string)
    ensures |r| == |s|
    ensures forall i :: 0 <= i < |s| ==> r[i] == AsciiLower(s[i])
  {
    seq(|s|, i requires 0 <= i < |s| => AsciiLower(s[i]))
  }

  /** `s.toUpperCase()`, restricted to the ASCII letters. */
  function ToUpper(s: string): (r: string)
    ensures |r| == |s|
    ensures forall i :: 0 <= i < |s| ==> r[i] == AsciiUpper(s[i])
  {
    seq(|s|, i requires 0 <= i < |s| => AsciiUpper(s[i]))
  }

  /** The characters the regular-expression class `\s` matches in ECMAScript:
      the white-space and line-terminator code points (tab to carriage return,
      space, no-break space, Ogham space mark, the en quad to hair space range,
      line and paragraph separators, narrow no-break space, medium mathematical
      space, ideographic space and the byte-order mark). */
  predicate IsSpace(c: char) {
    || ('\t' <= c <= '\r')
    || c == ' '
    || c == '\U{00A0}'
    || c == '\U{1680}'
    || ('\U{2000}' <= c <= '\U{200A}')
    || c == '\U{2028}' || c == '\U{2029}'
    || c == '\U{202F}' || c == '\U{205F}'
    || c == '\U{3000}' || c == '\U{FEFF}'
  }

  predicate NoSpace(s: string) {
    forall i {:trigger IsSpace(s[i])} :: 0 <= i < |s| ==> !IsSpace(s[i])
  }
}

=== FILE: wrappers.dfy ===
/** Option and Result, used wherever the source returns `undefined` or throws. */
module Wrappers {

  datatype Option<+T> = None | Some(value: T)

  datatype Result<+R, +E> = Success(value: R) | Failure(error: E)
}
